=== FILE: README.md ===
# ccsv in Dafny

This project models the CSV engine in `src/ccsv.c` of ccsv. That file is the older revision of the library, with `read_row` and `write_row`, not `ccsv_open` and `ccsv_next`. The model covers:

- **Construction.** `ccsv_init_reader` and `ccsv_init_writer` fill in defaults: `','` as delimiter, `'"'` as quote byte, leading spaces kept. An option byte left at NUL, or a NULL options pointer, takes the default. A new reader has `rows_read == 0`. This is module `Config`.
- **The `read_row` field scanner.** It is a six-state machine: `FIELD_START`, `FIELD_NOT_STARTED`, `FIELD_STARTED`, `INSIDE_QUOTED_FIELD`, `MAY_BE_ESCAPED` and `FIELD_END`.
  - It is modelled as a pure step function. Module `FieldScanner` holds it.
  - A step either advances, or re-reads the same byte in the next state (the C code's `row_pos--`), or ends the row (`goto end`).
  - The scanner value carries the state, the partial field, the field buffer's capacity, the finished fields and the `inside_quotes` flag.
- **The `read_row` driver.** Module `RowReader` holds it.
  - `fgets` cuts the remaining stream into chunks. A chunk ends after the first LF, or after `MAX_BUFFER_SIZE - 1` = 2047 bytes.
  - The scanner runs over chunk after chunk. When a row ends, the rest of the current chunk is discarded.
  - At end of file, a partial row is returned once. Otherwise the result is NULL.
  - `rows_read` counts the rows returned.
- **The `write_row` encoder.** Module `RowWriter` holds it.
  - A field is wrapped in quote bytes, with embedded quotes doubled, exactly when it holds the delimiter, the quote byte, CR or LF. This is the doubled-quote convention of section 2, rules 6-7, of RFC 4180.
  - Fields are joined by the delimiter.
  - Every row is preceded by an LF and has no terminator.
- **The `write_row_from_string` segmenter.** Module `Segmenter` holds it.
  - `_write_field` cuts a pre-formatted string into segments. Each segment ends just after a delimiter, CR or LF seen at even quote parity.
  - The segments are written verbatim, and CRLF follows.

On top of the model, the project proves:

- **Field buffer bound.** `|field| <= field_size` holds throughout, so the NUL written by `ADD_FIELD` fits in the `field_size + 1` byte allocation.
- **Chunk continuity.** `fgets` boundaries do not change which row is read; they change only how much of the following input is dropped (modules `FieldScanner`, `RowReader`).
- **Rest-of-line loss after CR.** A row ended by CR loses the rest of its line, when the next LF lies within the first 2047 bytes that `read_row` reads for that row. With a CRLF pair, that loss is exactly the LF.
- **Unquoted lines.** An unquoted line is split at every delimiter, compared against a reference splitter (module `LineSplitting`).
- **Field and row round trips.** Writer output read back gives the original fields and rows (modules `RoundTrip`, `ReadBack`).
- **Small inputs.** A few concrete inputs pin the corner cases down (module `Scenarios`).

Bytes are Dafny `char`s. Inputs are sequences of non-NUL bytes, because every C string in the code is measured with `strlen`.

Behaviour that the model reproduces as the code has it:

- A row written by `write_row` starts with LF. So reading a file written by `write_row` yields one extra row holding a single empty field before the rows written (`ReadBack.WriteRowsThenReadAll`).
- A last row holding only one empty field writes no bytes after its LF, and is not read back (`Scenarios.LastEmptyFieldLost`).
- A CR ends a row and the rest of the line, up to its LF, is dropped with the `fgets` chunk (`ReadBack.BareCrDropsLine`). A CRLF pair is absorbed the same way, but only when the LF falls in the same 2047-byte chunk as the CR. The proofs cover the case where that LF lies within the first 2047 bytes that `read_row` reads for the row.
- `FIELD_NOT_STARTED` does not treat CR or LF as the end of a field. With `skip_initial_space` set, a line break right after a skipped space becomes part of the next field (`Scenarios.SkippedSpaceKeepsLineBreak`).
- An opening quote that starts a row and is the last byte of the input yields no row (`Scenarios.LoneQuoteIsNoRow`, for the input `"`).
- A call to `write_row_from_string` with the empty string still consumes one byte. The `size_t` expression `string_len - 1` wraps, and the terminating NUL is read. The call then writes CRLF.

The code is the reference. Two descriptions of the library promise behaviour that this revision does not have:

- The header comment of include/ccsv.h:9-17 lists an escape byte, a comment byte, and options to ignore empty lines, comments and escape sequences. No code in src/ccsv.c reads these options.
- The example programs call a newer `ccsv_open`/`CCSV_WRITE_*` API, with explicit row-start and row-end calls (examples/writer_macros.c:31-35), which src/ccsv.c does not have. In src/ccsv.c only `write_row_from_string` ends a row with CRLF; `write_row` writes an LF before each row and no terminator.

The model follows the code in each of these cases. For example, `Scenarios.WriterQuotesDelimiter` shows that, with the default options, the row `["x", "y,z"]` is written as LF `x,"y,z"`, with no CRLF at the end.

## Model

| member | source | states |
|---|---|---|
| Config.InitReader | src/ccsv.c:58-107 | a new reader counts zero rows; a NULL options pointer gives `,` `"` and no space skipping; a NUL delimiter or quote takes its default, any other byte is kept; the skip flag is kept as given |
| Config.OmittedReaderOptionIsDefault | src/ccsv.c:62-92 | leaving a reader option out (NULL pointer or NUL byte) is the same as passing its documented default |
| Config.InitWriter | src/ccsv.c:341-376 | the writer's delimiter and quote are never NUL: a NUL or missing option takes `,` or `"`, any other byte is kept |
| Config.OmittedWriterOptionIsDefault | src/ccsv.c:344-364 | leaving a writer option out is the same as passing its default |
| FieldScanner.Step | src/ccsv.c:200-316 | one byte of the state machine: a re-read always moves to a lower-ranked state; a row ends only in FIELD_END on CR, LF or NUL, after adding the field; fields are appended only in FIELD_END, one at a time; a step appends at most the byte itself to the field; the field-buffer bound is preserved |
| FieldScanner.Scan | src/ccsv.c:195-328 | scanning stops right after a CR, LF or NUL terminator and leaves the rest of the input untouched; the row extends the fields already collected; the field-buffer bound survives any number of bytes |
| FieldScanner.ScanAppend | src/ccsv.c:322-327 | scanning two pieces of input is scanning the first and carrying state, partial field, fields and quote flag unchanged into the second |
| RowReader.LineLength | src/ccsv.c:166 | the length `fgets` reads: at least one byte of non-empty input, no LF before its last byte, ending at an LF, the size limit or the end of input |
| RowReader.Fgets | src/ccsv.c:165-166 | no chunk exactly at end of input; otherwise chunk and remainder concatenate to the input, the chunk holds 1 to 2047 bytes and ends at its first LF, at 2047 bytes, or at end of input |
| RowReader.Flush | src/ccsv.c:166-190 | at end of file a row is returned exactly when fields were collected or the current field is non-empty, and it is the collected fields plus the current field |
| RowReader.ReadRowFrom | src/ccsv.c:165-328 | the unread input is a suffix of the input, empty when no row is returned; a returned row has at least one field and extends the fields already collected; from a fresh scanner a row consumes at least one byte |
| RowReader.ReadRow | src/ccsv.c:120-337 | `rows_read` goes up by one exactly when a row is returned and the reader is unchanged on NULL; a row has at least one field and consumes input; the unread input is a NUL-free suffix |
| RowReader.ReadAll | src/ccsv.c:330-336 | after reading until NULL, `rows_read` has grown by the number of rows returned, each with at least one field |
| RowReader.ReadRowFromIsScan | src/ccsv.c:165-193 | the row `read_row` returns is the row the scanner finds in the whole stream, however `fgets` cuts it; at end of file the flushed row is the scanner's partial row; a row ended by LF loses nothing after it |
| RowReader.FirstChunk | src/ccsv.c:322-327 | a row ending inside the first chunk drops the rest of that chunk; otherwise reading continues with the scanner carried into the next chunk |
| RowReader.RestOfLineDropped | src/ccsv.c:311-315 | a row ended by CR loses everything up to and including the next LF, when that LF lies within the first 2047 bytes (`MAX_BUFFER_SIZE - 1`) of the input `read_row` scans for the row; with the LF right after the CR this is CRLF absorption |
| RowReader.ChunkReachesLf | src/ccsv.c:166 | when a row ends at a CR inside an `fgets` chunk and the next LF lies within the buffer limit, the chunk ends exactly after that LF, so the input after the chunk is what follows the LF |
| RowReader.RowOfScan | src/ccsv.c:120-337 | when the scanner finds a row in the whole input, `read_row` returns that row and counts it; a row ended by LF leaves exactly the scanner's remaining input |
| RowReader.RowOfScanCr | src/ccsv.c:311-315 | when the scanner's row ends at a CR and the next LF lies within the first 2047 bytes of the input, `read_row` returns that row, counts it, and resumes right after that LF |
| RowWriter.NeedsQuoteMeansSpecialByte | src/ccsv.c:391-400 | the quoting test fires exactly when some byte of the field is the delimiter, the quote byte, CR or LF |
| RowWriter.Double | src/ccsv.c:405-414 | doubling adds one byte per quote byte and leaves twice as many quote bytes; a NUL-free field with a non-NUL quote byte gives NUL-free output |
| RowWriter.EncodeField | src/ccsv.c:402-420 | the output starts with the quote byte exactly when the field needs quoting; an unquoted field is written verbatim; a quoted one is the field length plus its quote count plus two bytes long, ends with the quote byte, and holds 2n+2 quote bytes for n in the field |
| RowWriter.WriteRow | src/ccsv.c:378-427 | the output starts with LF and ends with the last encoded field, with no delimiter or terminator after it; when every field is NUL-free and the delimiter and quote bytes are not NUL, no NUL is written |
| RowWriter.JoinEndsWithLast | src/ccsv.c:422-425 | no delimiter follows the last field: the joined row ends with the last part |
| RowWriter.WriteRows | src/ccsv.c:385 | a sequence of `write_row` calls writes at least one byte per row, begins with LF, and writes no NUL when every field is NUL-free and the delimiter and quote bytes are not NUL |
| Segmenter.WriteField | src/ccsv.c:459-512 | `*string_pos` advances by exactly the returned count; from below the string end at least one byte is consumed and the segment stops at the first delimiter, CR or LF at even quote parity, or at the end; the bytes written are the segment unchanged; at the end of a non-empty string it returns 0; on the empty string it returns 1 and writes nothing |
| Segmenter.WriteRowFromString | src/ccsv.c:429-457 | the bytes written are the input string unchanged, followed by CR LF |
| RoundTrip.Terminate | src/ccsv.c:297-316 | after a finished field a delimiter adds the field and starts the next one, and CR or LF adds it and ends the row with the rest of the input untouched |
| RoundTrip.StartedPlain | src/ccsv.c:263-279 | outside quotes, FIELD_STARTED appends every byte other than the delimiter, CR, LF and NUL, stray quote bytes included |
| RoundTrip.UnquotedField | src/ccsv.c:255-280 | a field that does not open with a quote byte is collected literally and left finished, ready for its terminator |
| RoundTrip.QuotedStep | src/ccsv.c:282-287 | inside quotes a doubled quote yields one quote byte and any other byte is appended as it is, the quote flag staying set |
| RoundTrip.QuotedTail | src/ccsv.c:259-262 | the closing quote leaves MAY_BE_ESCAPED with the whole quoted body collected |
| RoundTrip.OpeningStep | src/ccsv.c:221-232 | the byte after an opening quote sets `inside_quotes` and is treated like the quoted part of FIELD_STARTED |
| RoundTrip.ClosingQuote | src/ccsv.c:288-293 | after a closing quote any other byte clears `inside_quotes` and is read again as an unquoted byte of the same field |
| RoundTrip.QuotedField | src/ccsv.c:221-295 | a quoted field with doubled quotes, delimiters and line breaks inside, is read back exactly |
| RoundTrip.EncodedField | src/ccsv.c:402-420 | whatever `write_row` makes of a field, the scanner reads back exactly that field |
| RoundTrip.EncodedFieldThen | src/ccsv.c:422-425 | an encoded field followed by a delimiter starts the next field; followed by CR or LF it ends the row |
| RoundTrip.EncodedRowTerminated | src/ccsv.c:386-426 | the encoded fields of a row joined by the delimiter and followed by CR or LF scan to exactly that row, leaving the rest of the input |
| RoundTrip.EncodedRowAtEnd | src/ccsv.c:386-426 | the same encoded row at the end of the input leaves all fields but the last finished and the last one collected |
| LineSplitting.Split | src/ccsv.c:268-274 | reference splitter: one more piece than delimiters, the pieces joined by the delimiter give the line back, and no piece holds the delimiter |
| LineSplitting.UnquotedRowTerminated | src/ccsv.c:209-213 | unquoted fields joined by the delimiter and ended by CR or LF scan to exactly those fields |
| LineSplitting.ScanUnquotedLine | src/ccsv.c:255-280 | a line without line breaks and without a field opening on a quote is split exactly at its delimiters: k delimiters give k+1 fields, stray quotes kept |
| ReadBack.Body | src/ccsv.c:385 | the output of a sequence of `write_row` calls is one LF followed by the first row's encoding and the remaining calls' output, with no NUL when no field holds one |
| ReadBack.EmptyLine | src/ccsv.c:209-213 | a line holding only LF is a row with one empty field, and reading resumes right after the LF |
| ReadBack.LastRow | src/ccsv.c:166-183 | the last row written, unless it is one empty field, is returned by the end-of-file flush |
| ReadBack.InnerRow | src/ccsv.c:311-315 | a written row followed by the next row's LF comes back whole, and reading resumes right after that LF |
| ReadBack.ReadBody | src/ccsv.c:120-337 | reading after the first LF of written rows returns those rows, one `read_row` call each, with `rows_read` counting them |
| ReadBack.WriteRowsThenReadAll | src/ccsv.c:378-427 | rows written with `write_row` read back with `read_row` as the rows written preceded by one row holding an empty field |
| ReadBack.WriteRowThenReadAll | src/ccsv.c:385-426 | for delimiter and quote bytes that are distinct and not CR, LF or NUL, with space skipping off and the same bytes in writer and reader, one NUL-free row with at least one field, other than a single empty field, written with `write_row` reads back as an empty row followed by that row |
| ReadBack.EncodedRowCrLf | src/ccsv.c:452-453 | an encoded row ended by CRLF, as `write_row_from_string` ends it, is read back and its LF is absorbed when the line fits one buffer |
| ReadBack.BareCrDropsLine | src/ccsv.c:311-314 | an unquoted line ended by a bare CR is returned and the rest of its line, up to and including the LF, is lost, when the line, CR, rest and LF together fit in the first 2047 bytes that `read_row` reads |
| ReadBack.ReadUnquotedLine | src/ccsv.c:268-274 | an unquoted line ended by LF reads back as its delimiter-separated pieces and nothing after the LF is lost |
| Scenarios.WriterQuotesDelimiter | src/ccsv.c:395-415 | for any three ordinary bytes x, y, z, the row `[x, y<delim>z]` is written as LF, `x`, the delimiter, then `y<delim>z` in quotes: only the field holding the delimiter is quoted, and nothing follows it (with the defaults, LF `x,"y,z"`) |
| Scenarios.ReaderUndoublesQuotes | src/ccsv.c:282-287 | for any ordinary bytes a, b, c, e, the line `a<delim>"b""c"<delim>e` LF reads as the three fields `a`, `b"c`, `e` and leaves nothing unread (with the defaults, `a,"b""c",e`) |
| Scenarios.LoneQuoteIsNoRow | src/ccsv.c:166-190 | an input that is a single quote byte gives no row |
| Scenarios.SkippedSpaceKeepsLineBreak | src/ccsv.c:234-253 | with space skipping, `a, ` LF `b` LF is one row whose second field starts with the LF |
| Scenarios.BareCrLosesLine | src/ccsv.c:311-314 | `a` CR `b` LF `c` LF reads as the two rows `a` and `c` |
| Scenarios.LastEmptyFieldLost | src/ccsv.c:166-190 | writing the rows `a` and one empty field reads back as an empty row and `a` only |

## Left out

- `FILE *` input and output: `fgets` is modelled on the remaining input as a sequence of bytes, and `fputc`/`fputs` as the bytes appended to the output.
- Allocation failures and the `CSV_ERNOMEM` results on those paths, in `read_row`, `ADD_FIELD`, `GROW_FIELD_BUFFER_IF_NEEDED`, both constructors, `write_row_from_string` and `_write_field`: the model assumes every allocation succeeds.
- `GROW_ROW_BUFFER_IF_NEEDED` (src/ccsv.c:45-56): it never fires, because `row_pos` is always below `row_len` where it is tested.
- `free_row` (src/ccsv.c:109-118) and every other `free`: memory is not modelled.
- NUL bytes inside input, fields or row strings: `strlen` would truncate them. The reader (`RowReader.ReadRow`, `RowReader.ReadAll`) and `write_row_from_string` (`Segmenter.WriteField`, `Segmenter.WriteRowFromString`) require NUL-free input, so the NUL tests in the scanner and in `_write_field` are never reached by a real byte.
- RowWriter.EncodeField, RowWriter.WriteRow and RowWriter.WriteRows accept a field holding a NUL and write the bytes after it as well, which `write_row` does not: `strlen` and `fputs` stop at the first NUL (src/ccsv.c:389, 419). Their contracts promise NUL-free output only for NUL-free fields, and every read-back lemma requires NUL-free fields.
- The `int` width of `rows_read`, of `field_len`, and of the `fields_count` copy and the loop counters in `write_row` (src/ccsv.c:383, 386, 392, 405): they are unbounded integers here. So overflow after 2^31 rows, in a field of 2^31 bytes, or in a row of 2^31 fields is not modelled.
- The Python bindings under `python/` and the example programs under `examples/`: they are callers, and mostly call a newer API that is not in this file.
- The structs and private prototypes of `include/ccsv.h`: only its constants are used.
- ReadBack.WriteRowsThenReadAll: stated only for delimiter and quote bytes that are distinct, not CR, LF or NUL, with space skipping off, for rows with at least one field and a last row other than one empty field. Outside these bounds the read-back need not be the written rows, and `Scenarios.LastEmptyFieldLost` shows one such case.
- ReadBack.EncodedRowCrLf: stated only for lines that fit in one `fgets` buffer together with their CRLF. Longer lines can have the CR and LF split over two chunks, which yields an extra empty row; that case is not proved.
- ReadBack.WriteRowThenReadAll: stated only for delimiter and quote bytes that are distinct, not CR, LF or NUL, with space skipping off and matching writer and reader, and for a row with at least one field other than one empty field. Outside these bounds the read-back need not be the written row: a row holding one empty field writes only its LF, so nothing follows the empty row; `Scenarios.LastEmptyFieldLost` shows this for a last row.
- RowReader.RestOfLineDropped: stated only when the LF after the CR lies within the first 2047 bytes of the input `read_row` scans for the row. A row that spans several chunks can have its CR and next LF in one chunk beyond that distance; the same loss happens there but is not proved.
- ReadBack.BareCrDropsLine: stated only when the line, the CR, the rest of the line and the LF fit in 2047 bytes, for the same reason as `RowReader.RestOfLineDropped`. Longer lines can have the CR and the LF in different chunks, and then the rest of the line is read as a further row; that case is not proved.

=== FILE: chars.dfy ===
/** Byte-level vocabulary shared by the reader and the writer: the control
    bytes the scanner reacts to, the buffer constants of `ccsv.h`, and the
    field/row shapes.  A C `char` is modelled as a Dafny `char`. */
module CsvChars {

  const NUL: char := '\0'
  const CR: char := '\r'
  const LF: char := '\n'
  const SPACE: char := ' '

  /** Size of the line buffer handed to `fgets`; one byte is kept for the NUL. */
  const MAX_BUFFER_SIZE: nat := 2048
  /** Initial capacity of a field buffer, and its growth increment. */
  const MAX_FIELD_SIZE: nat := 512

  const DEFAULT_DELIMITER: char := ','
  const DEFAULT_QUOTE_CHAR: char := '"'

  type Field = seq<char>
  type Row = seq<Field>

  /** A C string cannot hold a NUL byte. */
  predicate NulFree(s: seq<char>) {
    forall i :: 0 <= i < |s| ==> s[i] != NUL
  }

  predicate AllNulFree(row: Row) {
    forall i :: 0 <= i < |row| ==> NulFree(row[i])
  }

  /** The elements of a suffix are those of the whole, shifted by `k`. */
  lemma SuffixElements<T>(s: seq<T>, k: nat)
    requires k <= |s|
    ensures forall i :: 0 <= i < |s| - k ==> s[k..][i] == s[k + i]
  {
  }

  /** Number of occurrences of `c` in `s`. */
  function Count(c: char, s: seq<char>): nat
  {
    if |s| == 0 then 0 else (if s[0] == c then 1 else 0) + Count(c, s[1..])
  }

  lemma {:induction false} CountAppend(c: char, a: seq<char>, b: seq<char>)
    ensures Count(c, a + b) == Count(c, a) + Count(c, b)
    decreases |a|
  {
    if |a| == 0 {
      assert a + b == b;
    } else {
      assert (a + b)[1..] == a[1..] + b;
      CountAppend(c, a[1..], b);
    }
  }

  lemma NulFreeAppend(a: seq<char>, b: seq<char>)
    ensures NulFree(a + b) <==> NulFree(a) && NulFree(b)
  {
    if NulFree(a) && NulFree(b) {
      forall i | 0 <= i < |a + b| ensures (a + b)[i] != NUL {
        if i >= |a| {
          assert (a + b)[i] == b[i - |a|];
        }
      }
    }
    if NulFree(a + b) {
      forall i | 0 <= i < |a| ensures a[i] != NUL {
        assert a[i] == (a + b)[i];
      }
      forall i | 0 <= i < |b| ensures b[i] != NUL {
        assert b[i] == (a + b)[|a| + i];
      }
    }
  }
}

=== FILE: config.dfy ===
/** Reader and writer construction: `ccsv_init_reader` and `ccsv_init_writer`
    (src/ccsv.c).  A NULL options pointer is `None`; an option byte equal to
    NUL means "not given" and takes the default. */
module Config {
  import opened CsvChars
  import opened Wrappers

  datatype ReaderOptions = ReaderOptions(delim: char, quoteChar: char, skipInitialSpace: int)

  /** The settings `read_row` consults: the reader's private fields. */
  datatype Dialect = Dialect(delim: char, quoteChar: char, skipInitialSpace: int)

  datatype Reader = Reader(dialect: Dialect, rowsRead: int)

  datatype WriterOptions = WriterOptions(delim: char, quoteChar: char)

  datatype Writer = Writer(delim: char, quoteChar: char)

  /** An option byte left at NUL takes its default. */
  function OrDefault(given: char, default: char): char
  {
    if given == NUL then default else given
  }

  function InitReader(options: Option<ReaderOptions>): (r: Reader)
    ensures r.rowsRead == 0
    ensures r.dialect.delim != NUL && r.dialect.quoteChar != NUL
    ensures options.None? ==> r.dialect == Dialect(DEFAULT_DELIMITER, DEFAULT_QUOTE_CHAR, 0)
    ensures options.Some? && options.value.delim == NUL ==> r.dialect.delim == DEFAULT_DELIMITER
    ensures options.Some? && options.value.delim != NUL ==> r.dialect.delim == options.value.delim
    ensures options.Some? && options.value.quoteChar == NUL ==> r.dialect.quoteChar == DEFAULT_QUOTE_CHAR
    ensures options.Some? && options.value.quoteChar != NUL ==> r.dialect.quoteChar == options.value.quoteChar
    ensures options.Some? ==> r.dialect.skipInitialSpace == options.value.skipInitialSpace
  {
    match options
    case None => Reader(Dialect(DEFAULT_DELIMITER, DEFAULT_QUOTE_CHAR, 0), 0)
    case Some(o) =>
      Reader(Dialect(OrDefault(o.delim, DEFAULT_DELIMITER), OrDefault(o.quoteChar, DEFAULT_QUOTE_CHAR), o.skipInitialSpace), 0)
  }

  function InitWriter(options: Option<WriterOptions>): (w: Writer)
    ensures w.delim != NUL && w.quoteChar != NUL
    ensures options.None? ==> w == Writer(DEFAULT_DELIMITER, DEFAULT_QUOTE_CHAR)
    ensures options.Some? && options.value.delim == NUL ==> w.delim == DEFAULT_DELIMITER
    ensures options.Some? && options.value.delim != NUL ==> w.delim == options.value.delim
    ensures options.Some? && options.value.quoteChar == NUL ==> w.quoteChar == DEFAULT_QUOTE_CHAR
    ensures options.Some? && options.value.quoteChar != NUL ==> w.quoteChar == options.value.quoteChar
  {
    match options
    case None => Writer(DEFAULT_DELIMITER, DEFAULT_QUOTE_CHAR)
    case Some(o) => Writer(OrDefault(o.delim, DEFAULT_DELIMITER), OrDefault(o.quoteChar, DEFAULT_QUOTE_CHAR))
  }

  /** Leaving an option out is the same as passing its documented default. */
  lemma OmittedReaderOptionIsDefault(o: ReaderOptions)
    ensures InitReader(None) == InitReader(Some(ReaderOptions(DEFAULT_DELIMITER, DEFAULT_QUOTE_CHAR, 0)))
    ensures InitReader(None) == InitReader(Some(ReaderOptions(NUL, NUL, 0)))
    ensures InitReader(Some(o.(delim := NUL))) == InitReader(Some(o.(delim := DEFAULT_DELIMITER)))
    ensures InitReader(Some(o.(quoteChar := NUL))) == InitReader(Some(o.(quoteChar := DEFAULT_QUOTE_CHAR)))
  {
  }

  lemma OmittedWriterOptionIsDefault(o: WriterOptions)
    ensures InitWriter(None) == InitWriter(Some(WriterOptions(DEFAULT_DELIMITER, DEFAULT_QUOTE_CHAR)))
    ensures InitWriter(None) == InitWriter(Some(WriterOptions(NUL, NUL)))
    ensures InitWriter(Some(o.(delim := NUL))) == InitWriter(Some(o.(delim := DEFAULT_DELIMITER)))
    ensures InitWriter(Some(o.(quoteChar := NUL))) == InitWriter(Some(o.(quoteChar := DEFAULT_QUOTE_CHAR)))
  {
  }
}

=== FILE: lines.dfy ===
/** Unquoted lines: with no field opening on a quote byte, `read_row`
    splits a line at every delimiter, and nothing else. */
module LineSplitting {
  import opened CsvChars
  import opened Config
  import opened FieldScanner
  import opened RowWriter
  import opened RoundTrip

  /** Reference splitter: the pieces of `line` between delimiters. */
  function Split(line: seq<char>, delim: char): (r: Row)
    ensures |r| == Count(delim, line) + 1
    ensures Join(r, delim) == line
    ensures forall i, j :: 0 <= i < |r| && 0 <= j < |r[i]| ==> r[i][j] != delim && r[i][j] in line
  {
    if |line| == 0 then [[]]
    else
      var tail := Split(line[1..], delim);
      SplitStep(line, delim, tail);
      if line[0] == delim then [[]] + tail
      else [[line[0]] + tail[0]] + tail[1..]
  }

  /** One byte more in front of the line: a delimiter starts a new empty
      first piece, any other byte joins the first piece. */
  lemma SplitStep(line: seq<char>, delim: char, tail: Row)
    requires |line| > 0 && |tail| == Count(delim, line[1..]) + 1 && Join(tail, delim) == line[1..]
    requires forall i, j :: 0 <= i < |tail| && 0 <= j < |tail[i]| ==> tail[i][j] != delim && tail[i][j] in line[1..]
    ensures var r := if line[0] == delim then [[]] + tail else [[line[0]] + tail[0]] + tail[1..];
      && |r| == Count(delim, line) + 1 && Join(r, delim) == line
      && forall i, j :: 0 <= i < |r| && 0 <= j < |r[i]| ==> r[i][j] != delim && r[i][j] in line
  {
    assert [line[0]] + line[1..] == line;
    forall x | x in line[1..] ensures x in line {
      var k :| 0 <= k < |line[1..]| && line[1..][k] == x;
      assert line[k + 1] == x;
    }
    if line[0] == delim {
      var r := [[]] + tail;
      assert r[1..] == tail;
      assert forall i :: 1 <= i < |r| ==> r[i] == tail[i - 1];
    } else {
      var r := [[line[0]] + tail[0]] + tail[1..];
      JoinHead(line[0], tail, delim);
      assert forall i, j :: 0 <= i < |r| && 0 <= j < |r[i]| ==>
        r[i][j] == (if i == 0 && j == 0 then line[0] else if i == 0 then tail[0][j - 1] else tail[i][j]);
    }
  }

  lemma JoinHead(c: char, tail: Row, delim: char)
    requires |tail| >= 1
    ensures Join([[c] + tail[0]] + tail[1..], delim) == [c] + Join(tail, delim)
  {
    var r := [[c] + tail[0]] + tail[1..];
    assert r[1..] == tail[1..];
  }

  predicate NoLineBreaks(line: seq<char>)
  {
    forall i :: 0 <= i < |line| ==> line[i] != CR && line[i] != LF && line[i] != NUL
  }

  /** No field of the line opens on the quote byte. */
  predicate NoOpeningQuote(d: Dialect, line: seq<char>)
  {
    forall f :: f in Split(line, d.delim) ==> |f| == 0 || f[0] != d.quoteChar
  }

  predicate AllUnquoted(d: Dialect, row: Row)
  {
    forall i :: 0 <= i < |row| ==> Unquoted(d, row[i])
  }

  lemma UnquotedFieldThen(d: Dialect, acc: Row, f: Field, c: char, more: seq<char>)
    requires Compatible(d) && Unquoted(d, f)
    requires c == d.delim || c == CR || c == LF
    ensures c == d.delim ==> Scan(d, Start(acc), f + ([c] + more)) == Scan(d, Start(acc + [f]), more)
    ensures c != d.delim ==> Scan(d, Start(acc), f + ([c] + more)) == Complete(acc + [f], more)
  {
    UnquotedField(d, acc, f);
    ScanAppend(d, Start(acc), f, [c] + more);
    Terminate(d, Scan(d, Start(acc), f).scanner, f, acc, c, more);
  }

  lemma FirstUnquotedOfMany(d: Dialect, acc: Row, row: Row, more: seq<char>)
    requires Compatible(d) && AllUnquoted(d, row) && |row| > 1
    ensures Scan(d, Start(acc), Join(row, d.delim) + more) == Scan(d, Start(acc + [row[0]]), Join(row[1..], d.delim) + more)
  {
    var j := Join(row[1..], d.delim);
    assert Join(row, d.delim) + more == row[0] + ([d.delim] + (j + more));
    UnquotedFieldThen(d, acc, row[0], d.delim, j + more);
  }

  lemma OneUnquotedTerminated(d: Dialect, acc: Row, row: Row, c: char, more: seq<char>)
    requires Compatible(d) && AllUnquoted(d, row) && |row| == 1
    requires c == CR || c == LF
    ensures Scan(d, Start(acc), Join(row, d.delim) + ([c] + more)) == Complete(acc + row, more)
  {
    UnquotedFieldThen(d, acc, row[0], c, more);
    assert acc + [row[0]] == acc + row;
  }

  /** Unquoted fields joined by the delimiter and ended by CR or LF scan to
      exactly those fields. */
  lemma {:induction false} UnquotedRowTerminated(d: Dialect, acc: Row, row: Row, c: char, more: seq<char>)
    requires Compatible(d) && AllUnquoted(d, row) && |row| >= 1
    requires c == CR || c == LF
    ensures Scan(d, Start(acc), Join(row, d.delim) + ([c] + more)) == Complete(acc + row, more)
    decreases |row|
  {
    if |row| == 1 {
      OneUnquotedTerminated(d, acc, row, c, more);
    } else {
      FirstUnquotedOfMany(d, acc, row, [c] + more);
      assert AllUnquoted(d, row[1..]) by {
        forall i | 0 <= i < |row| - 1 ensures row[1..][i] == row[i + 1] { }
      }
      UnquotedRowTerminated(d, acc + [row[0]], row[1..], c, more);
      SplitFirst(acc, row);
    }
  }

  lemma SplitIsUnquoted(d: Dialect, line: seq<char>)
    requires NoLineBreaks(line) && NoOpeningQuote(d, line)
    ensures AllUnquoted(d, Split(line, d.delim))
  {
    var r := Split(line, d.delim);
    forall i | 0 <= i < |r| ensures Unquoted(d, r[i]) {
      assert r[i] in r;
      forall j | 0 <= j < |r[i]| ensures r[i][j] != CR && r[i][j] != LF && r[i][j] != NUL {
        var k :| 0 <= k < |line| && line[k] == r[i][j];
      }
    }
  }

  /** Row shape: a line without line breaks and without a field opening on
      a quote, ended by CR or LF, scans to its delimiter-separated pieces;
      k delimiters give k + 1 fields, stray quotes are kept. */
  lemma ScanUnquotedLine(d: Dialect, line: seq<char>, c: char, more: seq<char>)
    requires Compatible(d) && NoLineBreaks(line) && NoOpeningQuote(d, line)
    requires c == CR || c == LF
    ensures Scan(d, Start([]), line + ([c] + more)) == Complete(Split(line, d.delim), more)
    ensures |Scan(d, Start([]), line + ([c] + more)).row| == Count(d.delim, line) + 1
  {
    SplitIsUnquoted(d, line);
    UnquotedRowTerminated(d, [], Split(line, d.delim), c, more);
    assert [] + Split(line, d.delim) == Split(line, d.delim);
  }
}

=== FILE: readback.dfy ===
/** Reading back what the writer produced, through the whole `read_row`
    loop: `fgets` chunking, end-of-file flush and the row counter. */
module ReadBack {
  import opened CsvChars
  import opened Wrappers
  import opened Config
  import opened FieldScanner
  import opened RowReader
  import opened RowWriter
  import opened RoundTrip
  import opened LineSplitting

  /** Rows `write_row` can write and `read_row` can tell apart: every row
      has a field and no field holds NUL. */
  predicate Writable(rows: seq<Row>)
  {
    forall i :: 0 <= i < |rows| ==> |rows[i]| >= 1 && AllNulFree(rows[i])
  }

  /** `WriteRows` without its leading LF. */
  function Body(w: Writer, rows: seq<Row>): (r: seq<char>)
    requires |rows| >= 1
    ensures WriteRows(w, rows) == [LF] + r
    ensures w.delim != NUL && w.quoteChar != NUL && Writable(rows) ==> NulFree(r)
  {
    var j := Join(EncodeAll(w, rows[0]), w.delim);
    JoinNulFree(EncodeAll(w, rows[0]), w.delim);
    assert w.delim != NUL && w.quoteChar != NUL && Writable(rows) ==> NulFree(WriteRows(w, rows[1..])) by {
      if w.delim != NUL && w.quoteChar != NUL && Writable(rows) {
        forall i | 0 <= i < |rows| - 1 ensures AllNulFree(rows[1..][i]) {
          assert rows[1..][i] == rows[i + 1];
        }
      }
    }
    NulFreeAppend(j, WriteRows(w, rows[1..]));
    j + WriteRows(w, rows[1..])
  }

  /** The LF `write_row` puts before every row reads as a row holding one
      empty field. */
  lemma EmptyLine(rd: Reader, more: seq<char>)
    requires rd.dialect.quoteChar != LF && NulFree(more)
    ensures NulFree([LF] + more)
    ensures ReadRow(rd, [LF] + more) == ReadResult(Some([[]]), rd.(rowsRead := rd.rowsRead + 1), more)
  {
    var d := rd.dialect;
    var input := [LF] + more;
    var none: Row := [];
    assert none + [[]] == [[]];
    assert EndsOnLf(input, more);
    NulFreeAppend([LF], more);
    var s1 := Start([]).(state := FieldEnd);
    assert Step(d, Start([]), LF) == StepResult(s1, Reprocess);
    assert Step(d, s1, LF) == StepResult(Start([[]]), EndRow);
    ScanCons(d, Start([]), LF, more);
    ScanCons(d, s1, LF, more);
    ReadRowFromIsScan(d, Start([]), input);
  }

  lemma NothingLeft(rd: Reader)
    ensures ReadAll(rd, []) == ReadAllResult([], rd)
  {
    assert Fgets([]).None?;
  }

  /** The last row: the bytes run out inside it and the end-of-file flush
      returns it, unless it is the single empty field. */
  lemma LastRow(rd: Reader, w: Writer, row: Row)
    requires Compatible(rd.dialect) && Matches(w, rd.dialect)
    requires |row| >= 1 && AllNulFree(row) && row != [[]]
    ensures var j := Join(EncodeAll(w, row), w.delim);
      NulFree(j) && ReadRow(rd, j) == ReadResult(Some(row), rd.(rowsRead := rd.rowsRead + 1), [])
  {
    var d := rd.dialect;
    var j := Join(EncodeAll(w, row), w.delim);
    JoinNulFree(EncodeAll(w, row), w.delim);
    EncodedRowAtEnd(d, w, [], row);
    ReadRowFromIsScan(d, Start([]), j);
    var sc := Scan(d, Start([]), j).scanner;
    assert [] + row == row;
    if |row| == 1 {
      assert sc.field == row[0];
      assert row[0] != [];
    } else {
      assert |sc.fields| == |row| - 1;
    }
  }

  /** A row followed by the LF of the next `write_row` call comes back
      whole, and reading resumes right after that LF. */
  lemma InnerRow(rd: Reader, w: Writer, row: Row, next: seq<char>)
    requires Compatible(rd.dialect) && Matches(w, rd.dialect)
    requires |row| >= 1 && AllNulFree(row) && NulFree(next)
    ensures var input := Join(EncodeAll(w, row), w.delim) + ([LF] + next);
      NulFree(input) && ReadRow(rd, input) == ReadResult(Some(row), rd.(rowsRead := rd.rowsRead + 1), next)
  {
    var d := rd.dialect;
    var j := Join(EncodeAll(w, row), w.delim);
    var input := j + ([LF] + next);
    var none: Row := [];
    assert none + row == row;
    assert EndsOnLf(input, next);
    JoinNulFree(EncodeAll(w, row), w.delim);
    NulFreeAppend([LF], next);
    NulFreeAppend(j, [LF] + next);
    EncodedRowTerminated(d, w, [], row, LF, next);
    assert Scan(d, Start([]), input) == Complete(row, next);
    RowOfScan(rd, input);
  }

  lemma BodyCons(w: Writer, rows: seq<Row>)
    requires |rows| > 1
    ensures Body(w, rows) == Join(EncodeAll(w, rows[0]), w.delim) + ([LF] + Body(w, rows[1..]))
  {
  }

  lemma BodyOne(w: Writer, rows: seq<Row>)
    requires |rows| == 1
    ensures Body(w, rows) == Join(EncodeAll(w, rows[0]), w.delim)
  {
    assert WriteRows(w, rows[1..]) == [];
  }

  lemma HeadTail<T>(s: seq<T>)
    requires |s| >= 1
    ensures [s[0]] + s[1..] == s
  {
  }

  lemma ReadAllStep(rd: Reader, input: seq<char>, row: Row, rd1: Reader, next: seq<char>)
    requires NulFree(input) && ReadRow(rd, input) == ReadResult(Some(row), rd1, next)
    ensures NulFree(next)
    ensures ReadAll(rd, input) == ReadAllResult([row] + ReadAll(rd1, next).rows, ReadAll(rd1, next).reader)
  {
  }

  /** Reading everything after the first LF of `WriteRows` gives back the
      rows written, one `read_row` call each. */
  lemma {:induction false} ReadBody(rd: Reader, w: Writer, rows: seq<Row>)
    requires Compatible(rd.dialect) && Matches(w, rd.dialect)
    requires |rows| >= 1 && Writable(rows) && rows[|rows| - 1] != [[]]
    ensures NulFree(Body(w, rows))
    ensures ReadAll(rd, Body(w, rows)) == ReadAllResult(rows, rd.(rowsRead := rd.rowsRead + |rows|))
    decreases |rows|
  {
    if |rows| == 1 {
      ReadLastBody(rd, w, rows);
    } else {
      SuffixElements(rows, 1);
      assert rows[1..][|rows| - 2] == rows[|rows| - 1];
      ReadBody(rd.(rowsRead := rd.rowsRead + 1), w, rows[1..]);
      ReadBodyCons(rd, w, rows);
    }
  }

  lemma ReadLastBody(rd: Reader, w: Writer, rows: seq<Row>)
    requires Compatible(rd.dialect) && Matches(w, rd.dialect)
    requires |rows| == 1 && Writable(rows) && rows[0] != [[]]
    ensures NulFree(Body(w, rows))
    ensures ReadAll(rd, Body(w, rows)) == ReadAllResult(rows, rd.(rowsRead := rd.rowsRead + 1))
  {
    LastRow(rd, w, rows[0]);
    BodyOne(w, rows);
    ReadAllStep(rd, Body(w, rows), rows[0], rd.(rowsRead := rd.rowsRead + 1), []);
    NothingLeft(rd.(rowsRead := rd.rowsRead + 1));
    HeadTail(rows);
  }

  lemma ReadBodyCons(rd: Reader, w: Writer, rows: seq<Row>)
    requires Compatible(rd.dialect) && Matches(w, rd.dialect)
    requires |rows| > 1 && Writable(rows)
    requires NulFree(Body(w, rows[1..]))
    requires ReadAll(rd.(rowsRead := rd.rowsRead + 1), Body(w, rows[1..])) ==
      ReadAllResult(rows[1..], rd.(rowsRead := rd.rowsRead + |rows|))
    ensures NulFree(Body(w, rows))
    ensures ReadAll(rd, Body(w, rows)) == ReadAllResult(rows, rd.(rowsRead := rd.rowsRead + |rows|))
  {
    var next := Body(w, rows[1..]);
    InnerRow(rd, w, rows[0], next);
    BodyCons(w, rows);
    ReadAllStep(rd, Body(w, rows), rows[0], rd.(rowsRead := rd.rowsRead + 1), next);
    HeadTail(rows);
  }

  /** Round trip through a file: rows written with `write_row` read back
      with `read_row` until NULL, preceded by the empty row the writer's
      leading LF makes.  A last row holding one empty field writes no
      bytes after its LF and is not read back. */
  lemma WriteRowsThenReadAll(rd: Reader, w: Writer, rows: seq<Row>)
    requires Compatible(rd.dialect) && Matches(w, rd.dialect)
    requires Writable(rows) && (|rows| == 0 || rows[|rows| - 1] != [[]])
    ensures NulFree(WriteRows(w, rows))
    ensures var all := ReadAll(rd, WriteRows(w, rows));
      && all.rows == (if |rows| == 0 then [] else [[[]]] + rows)
      && all.reader.rowsRead == rd.rowsRead + |all.rows|
  {
    if |rows| == 0 {
      NothingLeft(rd);
    } else {
      var body := Body(w, rows);
      ReadBody(rd.(rowsRead := rd.rowsRead + 1), w, rows);
      EmptyLine(rd, body);
    }
  }

  /** The same for a single `write_row` call. */
  lemma WriteRowThenReadAll(rd: Reader, w: Writer, row: Row)
    requires Compatible(rd.dialect) && Matches(w, rd.dialect)
    requires |row| >= 1 && AllNulFree(row) && row != [[]]
    ensures NulFree(WriteRow(w, row))
    ensures ReadAll(rd, WriteRow(w, row)).rows == [[[]], row]
  {
    assert WriteRows(w, [row]) == WriteRow(w, row) + WriteRows(w, []);
    assert WriteRow(w, row) == WriteRows(w, [row]);
    WriteRowsThenReadAll(rd, w, [row]);
  }

  /** A line ended by CRLF, as `write_row_from_string` ends it: the CR ends
      the row and its LF is absorbed with the rest of the `fgets` chunk,
      provided the line fits in one buffer. */
  lemma EncodedRowCrLf(rd: Reader, w: Writer, row: Row, more: seq<char>)
    requires Compatible(rd.dialect) && Matches(w, rd.dialect)
    requires |row| >= 1 && AllNulFree(row) && NulFree(more)
    requires |Join(EncodeAll(w, row), w.delim)| + 2 <= MAX_BUFFER_SIZE - 1
    ensures var input := Join(EncodeAll(w, row), w.delim) + ([CR] + ([LF] + more));
      NulFree(input) && ReadRow(rd, input) == ReadResult(Some(row), rd.(rowsRead := rd.rowsRead + 1), more)
  {
    var tail := [LF] + more;
    var input := Join(EncodeAll(w, row), w.delim) + ([CR] + tail);
    assert tail[1..] == more;
    EncodedRowCrScan(rd.dialect, w, row, more);
    RowOfScanCr(rd, input, row, tail, 0);
  }

  /** The scanner's half of `EncodedRowCrLf`: the encoded row ends at the
      CR and the LF right after it is the first byte left over. */
  lemma EncodedRowCrScan(d: Dialect, w: Writer, row: Row, more: seq<char>)
    requires Compatible(d) && Matches(w, d)
    requires |row| >= 1 && AllNulFree(row) && NulFree(more)
    requires |Join(EncodeAll(w, row), w.delim)| + 2 <= MAX_BUFFER_SIZE - 1
    ensures var input := Join(EncodeAll(w, row), w.delim) + ([CR] + ([LF] + more));
      && NulFree(input)
      && Scan(d, Start([]), input) == Complete(row, [LF] + more)
      && CrLineEnd(input, [LF] + more, 0)
  {
    var j := Join(EncodeAll(w, row), w.delim);
    var tail := [LF] + more;
    var input := j + ([CR] + tail);
    assert tail[0] == LF;
    assert input[|input| - |tail| - 1] == CR;
    var none: Row := [];
    assert none + row == row;
    JoinNulFree(EncodeAll(w, row), w.delim);
    NulFreeAppend([LF], more);
    NulFreeAppend([CR], tail);
    NulFreeAppend(j, [CR] + tail);
    EncodedRowTerminated(d, w, [], row, CR, tail);
  }

  /** A bare CR ends the row and drops the rest of its line, up to and
      including the next LF, when that LF lies in the same `fgets`
      buffer. */
  lemma BareCrDropsLine(rd: Reader, line: seq<char>, tail: seq<char>, more: seq<char>)
    requires Compatible(rd.dialect) && NoLineBreaks(line) && NoOpeningQuote(rd.dialect, line)
    requires NulFree(tail) && NulFree(more) && (forall i :: 0 <= i < |tail| ==> tail[i] != LF)
    requires |line| + |tail| + 2 <= MAX_BUFFER_SIZE - 1
    ensures var input := line + ([CR] + (tail + ([LF] + more)));
      NulFree(input) && ReadRow(rd, input) ==
        ReadResult(Some(Split(line, rd.dialect.delim)), rd.(rowsRead := rd.rowsRead + 1), more)
  {
    BareCrInputNulFree(line, tail, more);
    BareCrRow(rd.dialect, line, tail, more);
  }

  lemma BareCrInputNulFree(line: seq<char>, tail: seq<char>, more: seq<char>)
    requires NoLineBreaks(line) && NulFree(tail) && NulFree(more)
    ensures NulFree(line + ([CR] + (tail + ([LF] + more))))
  {
    var rest := tail + ([LF] + more);
    assert NulFree(line);
    NulFreeAppend([LF], more);
    NulFreeAppend(tail, [LF] + more);
    NulFreeAppend([CR], rest);
    NulFreeAppend(line, [CR] + rest);
  }

  lemma BareCrRow(d: Dialect, line: seq<char>, tail: seq<char>, more: seq<char>)
    requires Compatible(d) && NoLineBreaks(line) && NoOpeningQuote(d, line)
    requires forall i :: 0 <= i < |tail| ==> tail[i] != LF
    requires |line| + |tail| + 2 <= MAX_BUFFER_SIZE - 1
    ensures ReadRowFrom(d, Start([]), line + ([CR] + (tail + ([LF] + more)))) ==
      RowResult(Some(Split(line, d.delim)), more)
  {
    var rest := tail + ([LF] + more);
    var input := line + ([CR] + rest);
    ScanUnquotedLine(d, line, CR, rest);
    CrLineEndAfter(line, tail, more);
    RestOfLineDropped(d, Start([]), input, |tail|);
    PastLf(tail, more);
  }

  lemma PastLf(tail: seq<char>, more: seq<char>)
    ensures (tail + ([LF] + more))[|tail| + 1..] == more
  {
  }

  lemma CrLineEndAfter(line: seq<char>, tail: seq<char>, more: seq<char>)
    requires forall i :: 0 <= i < |tail| ==> tail[i] != LF
    requires |line| + |tail| + 2 <= MAX_BUFFER_SIZE - 1
    ensures CrLineEnd(line + ([CR] + (tail + ([LF] + more))), tail + ([LF] + more), |tail|)
  {
    var rest := tail + ([LF] + more);
    var input := line + ([CR] + rest);
    assert input[|input| - |rest| - 1] == CR;
    assert rest[|tail|] == LF;
    assert forall i :: 0 <= i < |tail| ==> rest[i] == tail[i];
  }

  /** An unquoted line ended by LF reads back as its delimiter-separated
      pieces, and nothing after the LF is lost. */
  lemma ReadUnquotedLine(rd: Reader, line: seq<char>, more: seq<char>)
    requires Compatible(rd.dialect) && NoLineBreaks(line) && NoOpeningQuote(rd.dialect, line)
    requires NulFree(more)
    ensures var input := line + ([LF] + more);
      NulFree(input) && ReadRow(rd, input) ==
        ReadResult(Some(Split(line, rd.dialect.delim)), rd.(rowsRead := rd.rowsRead + 1), more)
  {
    LineNulFree(line, more);
    UnquotedLineRow(rd.dialect, line, more);
  }

  lemma LineNulFree(line: seq<char>, more: seq<char>)
    requires NoLineBreaks(line) && NulFree(more)
    ensures NulFree(line + ([LF] + more))
  {
    assert NulFree(line);
    NulFreeAppend([LF], more);
    NulFreeAppend(line, [LF] + more);
  }

  lemma UnquotedLineRow(d: Dialect, line: seq<char>, more: seq<char>)
    requires Compatible(d) && NoLineBreaks(line) && NoOpeningQuote(d, line)
    ensures ReadRowFrom(d, Start([]), line + ([LF] + more)) == RowResult(Some(Split(line, d.delim)), more)
  {
    var input := line + ([LF] + more);
    ScanUnquotedLine(d, line, LF, more);
    assert input[|input| - |more| - 1] == LF;
    ReadRowFromIsScan(d, Start([]), input);
  }
}

=== FILE: reader.dfy ===
/** `read_row` (src/ccsv.c:120-337): the scanner driven over the chunks that
    `fgets` hands out, the end-of-stream flush, and the row counter.  The
    input stream is the sequence of bytes not yet read from the file. */
module RowReader {
  import opened CsvChars
  import opened Wrappers
  import opened Config
  import opened FieldScanner

  /** How many bytes one `fgets` call takes from `input` when it may take
      at most `limit`: up to and including the first LF. */
  function LineLength(input: seq<char>, limit: nat): (n: nat)
    ensures n <= limit && n <= |input|
    ensures |input| > 0 && limit > 0 ==> n >= 1
    ensures forall i :: 0 <= i < n - 1 ==> input[i] != LF
    ensures n == |input| || n == limit || (n > 0 && input[n - 1] == LF)
  {
    if |input| == 0 || limit == 0 then 0
    else if input[0] == LF then 1
    else 1 + LineLength(input[1..], limit - 1)
  }

  datatype Chunk = Chunk(text: seq<char>, rest: seq<char>)

  /** `fgets(row_string, MAX_BUFFER_SIZE, fp)`: NULL at end of file,
      otherwise the next line, cut after `MAX_BUFFER_SIZE - 1` bytes. */
  function Fgets(input: seq<char>): (r: Option<Chunk>)
    ensures r.None? <==> |input| == 0
    ensures r.Some? ==>
      && r.value.text + r.value.rest == input
      && 1 <= |r.value.text| <= MAX_BUFFER_SIZE - 1
      && (forall i :: 0 <= i < |r.value.text| - 1 ==> r.value.text[i] != LF)
      && (r.value.text[|r.value.text| - 1] == LF || |r.value.text| == MAX_BUFFER_SIZE - 1 || r.value.rest == [])
  {
    if |input| == 0 then None
    else
      var n := LineLength(input, MAX_BUFFER_SIZE - 1);
      assert input[..n] + input[n..] == input;
      Some(Chunk(input[..n], input[n..]))
  }

  datatype RowResult = RowResult(row: Option<Row>, rest: seq<char>)

  /** End of file: a partly read row (`fields_count > 0 || field_pos > 0`)
      is returned with its last field added; otherwise there is no row. */
  function Flush(s: Scanner): (r: RowResult)
    ensures r.rest == []
    ensures r.row.Some? <==> |s.fields| > 0 || |s.field| > 0
    ensures r.row.Some? ==> r.row.value == s.fields + [s.field]
  {
    if |s.fields| > 0 || |s.field| > 0 then RowResult(Some(s.fields + [s.field]), [])
    else RowResult(None, [])
  }

  /** The `readfile` loop: scan chunk after chunk; when a row ends inside a
      chunk the rest of that chunk is dropped along with `row_string`. */
  function ReadRowFrom(d: Dialect, s: Scanner, input: seq<char>): (r: RowResult)
    decreases |input|
    ensures |r.rest| <= |input| && r.rest == input[|input| - |r.rest|..]
    ensures r.row.None? ==> r.rest == []
    ensures r.row.Some? ==> |r.row.value| >= 1 && s.fields <= r.row.value
    ensures r.row.Some? && s.fields == [] && s.field == [] ==> |r.rest| < |input|
  {
    match Fgets(input)
    case None => Flush(s)
    case Some(chunk) =>
      match Scan(d, s, chunk.text)
      case Complete(row, _) => RowResult(Some(row), chunk.rest)
      case NeedMore(s') => ReadRowFrom(d, s', chunk.rest)
  }

  datatype ReadResult = ReadResult(row: Option<Row>, reader: Reader, rest: seq<char>)

  /** One call of `read_row`: a row, or NULL at the end of the input. */
  function ReadRow(reader: Reader, input: seq<char>): (r: ReadResult)
    requires NulFree(input)
    ensures r.row.Some? ==> r.reader == reader.(rowsRead := reader.rowsRead + 1)
    ensures r.row.None? ==> r.reader == reader && r.rest == []
    ensures r.row.Some? ==> |r.row.value| >= 1 && |r.rest| < |input|
    ensures r.rest == input[|input| - |r.rest|..] && NulFree(r.rest)
  {
    var res := ReadRowFrom(reader.dialect, Start([]), input);
    SuffixElements(input, |input| - |res.rest|);
    if res.row.Some? then ReadResult(res.row, reader.(rowsRead := reader.rowsRead + 1), res.rest)
    else ReadResult(None, reader, [])
  }

  datatype ReadAllResult = ReadAllResult(rows: seq<Row>, reader: Reader)

  /** Calling `read_row` until it returns NULL. */
  function ReadAll(reader: Reader, input: seq<char>): (r: ReadAllResult)
    requires NulFree(input)
    decreases |input|
    ensures r.reader == reader.(rowsRead := reader.rowsRead + |r.rows|)
    ensures forall i :: 0 <= i < |r.rows| ==> |r.rows[i]| >= 1
  {
    var one := ReadRow(reader, input);
    match one.row
    case None => ReadAllResult([], reader)
    case Some(row) =>
      assert |row| >= 1 && |one.rest| < |input|;
      var more := ReadAll(one.reader, one.rest);
      ConsRows(row, more.rows);
      ReadAllResult([row] + more.rows, more.reader)
  }

  lemma ConsRows(row: Row, rows: seq<Row>)
    requires |row| >= 1 && forall i :: 0 <= i < |rows| ==> |rows[i]| >= 1
    ensures forall i :: 0 <= i < |[row] + rows| ==> |([row] + rows)[i]| >= 1
  {
    var all := [row] + rows;
    assert forall i :: 1 <= i < |all| ==> all[i] == rows[i - 1];
  }

  /** Buffer-boundary invariance: the row `read_row` returns is the row the
      scanner finds in the whole stream, however `fgets` cuts it into
      chunks.  Only what follows the terminator depends on the chunks: if
      the row ends on an LF nothing after it is lost. */
  lemma {:induction false} ReadRowFromIsScan(d: Dialect, s: Scanner, input: seq<char>)
    ensures Scan(d, s, input).NeedMore? ==> ReadRowFrom(d, s, input) == Flush(Scan(d, s, input).scanner)
    ensures Scan(d, s, input).Complete? ==> ReadRowFrom(d, s, input).row == Some(Scan(d, s, input).row)
    ensures Scan(d, s, input).Complete? ==> |ReadRowFrom(d, s, input).rest| <= |Scan(d, s, input).rest|
    ensures Scan(d, s, input).Complete? && EndsOnLf(input, Scan(d, s, input).rest) ==>
      ReadRowFrom(d, s, input).rest == Scan(d, s, input).rest
    decreases |input|
  {
    if |input| > 0 {
      var text, after := ChunkOf(input);
      var oc := Scan(d, s, text);
      FirstChunk(d, s, input);
      if oc.NeedMore? {
        ReadRowFromIsScan(d, oc.scanner, after);
        var o := Scan(d, oc.scanner, after);
        if o.Complete? {
          LfInLaterChunk(text, after, o.rest);
        }
      }
    }
  }

  /** The terminator of a row that ends in a later chunk is the same byte
      of the whole input. */
  lemma LfInLaterChunk(text: seq<char>, after: seq<char>, rest: seq<char>)
    requires |rest| < |after|
    ensures EndsOnLf(text + after, rest) <==> EndsOnLf(after, rest)
  {
    assert (text + after)[|text + after| - |rest| - 1] == after[|after| - |rest| - 1];
  }

  /** `read_row` from the start of a row returns the row the scanner
      finds, and when that row ends on an LF it consumes exactly the bytes
      up to and including that LF. */
  lemma RowOfScan(reader: Reader, input: seq<char>)
    requires NulFree(input) && Scan(reader.dialect, Start([]), input).Complete?
    ensures ReadRow(reader, input).row == Some(Scan(reader.dialect, Start([]), input).row)
    ensures ReadRow(reader, input).reader == reader.(rowsRead := reader.rowsRead + 1)
    ensures EndsOnLf(input, Scan(reader.dialect, Start([]), input).rest) ==>
      ReadRow(reader, input).rest == Scan(reader.dialect, Start([]), input).rest
  {
    ReadRowFromIsScan(reader.dialect, Start([]), input);
  }

  /** `read_row` from the start of a row that the scanner ends on a CR
      drops the rest of that line with the chunk. */
  lemma RowOfScanCr(reader: Reader, input: seq<char>, row: Row, rest: seq<char>, k: nat)
    requires NulFree(input) && Scan(reader.dialect, Start([]), input) == Complete(row, rest)
    requires CrLineEnd(input, rest, k)
    ensures ReadRow(reader, input) == ReadResult(Some(row), reader.(rowsRead := reader.rowsRead + 1), rest[k + 1..])
  {
    var d := reader.dialect;
    assert CrLineEnd(input, Scan(d, Start([]), input).rest, k);
    RestOfLineDropped(d, Start([]), input, k);
    ReadRowOfFrom(reader, input, row, rest[k + 1..]);
  }

  /** `read_row` returns whatever the scan from the start state returns,
      counting the row. */
  lemma ReadRowOfFrom(reader: Reader, input: seq<char>, row: Row, rest: seq<char>)
    requires NulFree(input) && ReadRowFrom(reader.dialect, Start([]), input) == RowResult(Some(row), rest)
    ensures ReadRow(reader, input) == ReadResult(Some(row), reader.(rowsRead := reader.rowsRead + 1), rest)
  {
  }

  /** What one `fgets` chunk contributes: either the row ends inside it and
      the rest of the chunk is dropped, or the scanner carries on into the
      following chunks. */
  lemma FirstChunk(d: Dialect, s: Scanner, input: seq<char>)
    requires |input| > 0
    ensures var chunk := Fgets(input).value;
      var oc := Scan(d, s, chunk.text);
      && (oc.Complete? ==>
            && ReadRowFrom(d, s, input) == RowResult(Some(oc.row), chunk.rest)
            && Scan(d, s, input) == Complete(oc.row, oc.rest + chunk.rest)
            && (EndsOnLf(input, oc.rest + chunk.rest) ==> oc.rest == []))
      && (oc.NeedMore? ==>
            && ReadRowFrom(d, s, input) == ReadRowFrom(d, oc.scanner, chunk.rest)
            && Scan(d, s, input) == Scan(d, oc.scanner, chunk.rest))
  {
    var chunk := Fgets(input).value;
    ScanAppend(d, s, chunk.text, chunk.rest);
    var oc := Scan(d, s, chunk.text);
    if oc.Complete? && EndsOnLf(input, oc.rest + chunk.rest) {
      var t := |chunk.text| - |oc.rest| - 1;
      assert input[t] == chunk.text[t];
      assert t == |chunk.text| - 1;
    }
  }

  /** The byte just before `rest` (the row terminator) is an LF. */
  predicate EndsOnLf(input: seq<char>, rest: seq<char>)
  {
    |rest| < |input| && input[|input| - |rest| - 1] == LF
  }

  /** The row terminator just before `rest` is a CR; the first LF after it
      is `rest[k]`, and it lies within one `fgets` buffer of the input's
      start. */
  predicate CrLineEnd(input: seq<char>, rest: seq<char>, k: nat)
  {
    && k < |rest| < |input|
    && input[|input| - |rest| - 1] == CR
    && rest[k] == LF
    && (forall i :: 0 <= i < k ==> rest[i] != LF)
    && |input| - |rest| + k + 1 <= MAX_BUFFER_SIZE - 1
  }

  /** A row ended by a CR loses the rest of its line: when the next LF
      after the CR falls in the same `fgets` buffer, everything up to and
      including that LF is dropped with the chunk.  With `k == 0` this is
      how a CRLF pair is absorbed as one terminator. */
  lemma {:induction false} RestOfLineDropped(d: Dialect, s: Scanner, input: seq<char>, k: nat)
    requires Scan(d, s, input).Complete? && CrLineEnd(input, Scan(d, s, input).rest, k)
    ensures ReadRowFrom(d, s, input) == RowResult(Some(Scan(d, s, input).row), Scan(d, s, input).rest[k + 1..])
    decreases |input|
  {
    var chunk := Fgets(input).value;
    if Scan(d, s, chunk.text).Complete? {
      DroppedWithFirstChunk(d, s, input, k);
    } else {
      FirstChunk(d, s, input);
      var o := Scan(d, s, input);
      var oc := Scan(d, s, chunk.text);
      assert o == Scan(d, oc.scanner, chunk.rest);
      assert input[|input| - |o.rest| - 1] == chunk.rest[|chunk.rest| - |o.rest| - 1];
      assert CrLineEnd(chunk.rest, o.rest, k);
      RestOfLineDropped(d, oc.scanner, chunk.rest, k);
    }
  }

  lemma DroppedWithFirstChunk(d: Dialect, s: Scanner, input: seq<char>, k: nat)
    requires |input| > 0 && Scan(d, s, Fgets(input).value.text).Complete?
    requires Scan(d, s, input).Complete? && CrLineEnd(input, Scan(d, s, input).rest, k)
    ensures ReadRowFrom(d, s, input) == RowResult(Some(Scan(d, s, input).row), Scan(d, s, input).rest[k + 1..])
  {
    var text, after := ChunkOf(input);
    var left := Scan(d, s, text).rest;
    var rest := Scan(d, s, input).rest;
    FirstChunk(d, s, input);
    ChunkReachesLf(input, text, after, left, rest, k);
  }

  /** The two parts `fgets` splits a non-empty input into. */
  lemma ChunkOf(input: seq<char>) returns (text: seq<char>, after: seq<char>)
    requires |input| > 0
    ensures Fgets(input) == Some(Chunk(text, after))
    ensures text + after == input && 1 <= |text| <= MAX_BUFFER_SIZE - 1
    ensures forall i :: 0 <= i < |text| - 1 ==> text[i] != LF
    ensures text[|text| - 1] == LF || |text| == MAX_BUFFER_SIZE - 1 || after == []
  {
    text, after := Fgets(input).value.text, Fgets(input).value.rest;
  }

  /** An `fgets` chunk in which a row ends on a CR, where the next LF lies
      within the buffer limit, ends exactly after that LF: the `k + 1`
      bytes left in the chunk after the CR are what `read_row` drops. */
  lemma ChunkReachesLf(input: seq<char>, text: seq<char>, after: seq<char>, left: seq<char>, rest: seq<char>, k: nat)
    requires text + after == input && 1 <= |text| <= MAX_BUFFER_SIZE - 1
    requires forall i :: 0 <= i < |text| - 1 ==> text[i] != LF
    requires text[|text| - 1] == LF || |text| == MAX_BUFFER_SIZE - 1 || after == []
    requires |left| < |text| && rest == left + after
    requires rest == input[|input| - |rest|..] && CrLineEnd(input, rest, k)
    ensures rest[k + 1..] == after
  {
    var t := |text| - |left| - 1;
    var n := |text|;
    assert input[t] == CR;
    assert rest[k] == LF && input[t + 1 + k] == rest[k];
    // no LF before the chunk's last byte, so the LF at `t + 1 + k` is not early
    assert t + 1 + k >= n - 1;
    // the chunk's last byte is not an LF if it lies between the CR and
    // `t + 1 + k`, so the chunk does not stop early
    SuffixIndex(input, rest, n - 1);
    assert input[n - 1] == text[n - 1];
    assert t + 1 + k <= n - 1;
    assert rest[k + 1..] == after;
  }

  /** Byte `j` of the input, when it lies in the suffix `rest`. */
  lemma SuffixIndex(input: seq<char>, rest: seq<char>, j: int)
    ensures |rest| <= |input| && rest == input[|input| - |rest|..] && |input| - |rest| <= j < |input| ==>
      input[j] == rest[j - (|input| - |rest|)]
  {
  }
}

=== FILE: roundtrip.dfy ===
/** What the scanner makes of well-formed input: unquoted lines split at
    every delimiter, and the writer's encoding read back field for field. */
module RoundTrip {
  import opened CsvChars
  import opened Config
  import opened FieldScanner
  import opened RowWriter

  /** Settings under which quoting is unambiguous: delimiter and quote are
      distinct, neither is a line break or NUL, and leading spaces are
      kept. */
  predicate Compatible(d: Dialect)
  {
    && d.skipInitialSpace == 0
    && d.delim != d.quoteChar
    && d.delim != CR && d.delim != LF && d.delim != NUL
    && d.quoteChar != CR && d.quoteChar != LF && d.quoteChar != NUL
  }

  predicate Matches(w: Writer, d: Dialect)
  {
    w.delim == d.delim && w.quoteChar == d.quoteChar
  }

  /** The scanner has collected all of field `f` after `acc`, and the next
      delimiter, CR or LF will end that field. */
  predicate Finished(s: Scanner, f: Field, acc: Row)
  {
    && s.fields == acc && s.field == f
    && ((s.state == FieldStart && f == [] && !s.insideQuotes)
        || (s.state == FieldStarted && !s.insideQuotes)
        || s.state == MayBeEscaped)
  }

  /** A byte an unquoted field can hold: anything but the delimiter, a line
      break or NUL.  Stray quote bytes are allowed. */
  predicate PlainField(d: Dialect, f: Field)
  {
    forall i :: 0 <= i < |f| ==> f[i] != d.delim && f[i] != CR && f[i] != LF && f[i] != NUL
  }

  predicate Unquoted(d: Dialect, f: Field)
  {
    PlainField(d, f) && (|f| == 0 || f[0] != d.quoteChar)
  }

  /** A delimiter after a finished field starts the next one; a CR or LF
      ends the row. */
  lemma Terminate(d: Dialect, s: Scanner, f: Field, acc: Row, c: char, more: seq<char>)
    requires Compatible(d) && Finished(s, f, acc)
    requires c == d.delim || c == CR || c == LF
    ensures c == d.delim ==> Scan(d, s, [c] + more) == Scan(d, Start(acc + [f]), more)
    ensures c != d.delim ==> Scan(d, s, [c] + more) == Complete(acc + [f], more)
  {
    if s.state == MayBeEscaped {
      var e := s.(state := FieldStarted, insideQuotes := false);
      assert Step(d, s, c) == StepResult(e, Reprocess);
      ScanCons(d, s, c, more);
      TerminateUnquoted(d, e, f, acc, c, more);
    } else {
      TerminateUnquoted(d, s, f, acc, c, more);
    }
  }

  lemma TerminateUnquoted(d: Dialect, s: Scanner, f: Field, acc: Row, c: char, more: seq<char>)
    requires Compatible(d) && s.fields == acc && s.field == f && !s.insideQuotes
    requires (s.state == FieldStart && f == []) || s.state == FieldStarted
    requires c == d.delim || c == CR || c == LF
    ensures c == d.delim ==> Scan(d, s, [c] + more) == Scan(d, Start(acc + [f]), more)
    ensures c != d.delim ==> Scan(d, s, [c] + more) == Complete(acc + [f], more)
  {
    var r := Step(d, s, c);
    assert r.action == Reprocess && r.next.state == FieldEnd;
    var e2 := r.next;
    assert e2.fields == acc && e2.field == f && !e2.insideQuotes;
    ScanCons(d, s, c, more);
    var r2 := Step(d, e2, c);
    assert r2.next == Start(acc + [f]);
    assert c == d.delim ==> r2.action == Advance;
    assert c != d.delim ==> r2.action == EndRow;
    ScanCons(d, e2, c, more);
  }

  lemma {:induction false} StartedPlain(d: Dialect, s: Scanner, g: seq<char>)
    requires s.state == FieldStarted && !s.insideQuotes && PlainField(d, g)
    ensures var o := Scan(d, s, g);
      && o.NeedMore? && o.scanner.state == FieldStarted && !o.scanner.insideQuotes
      && o.scanner.field == s.field + g && o.scanner.fields == s.fields
    decreases |g|
  {
    if |g| > 0 {
      var s1 := Step(d, s, g[0]).next;
      assert s1.field == s.field + [g[0]];
      assert Scan(d, s, g) == Scan(d, s1, g[1..]);
      assert PlainField(d, g[1..]) by {
        forall i | 0 <= i < |g| - 1 ensures g[1..][i] == g[i + 1] { }
      }
      StartedPlain(d, s1, g[1..]);
      assert s.field + [g[0]] + g[1..] == s.field + g;
    } else {
      assert s.field + g == s.field;
    }
  }

  /** An unquoted field is collected byte for byte, stray quotes included. */
  lemma UnquotedField(d: Dialect, acc: Row, f: Field)
    requires Compatible(d) && Unquoted(d, f)
    ensures Scan(d, Start(acc), f).NeedMore? && Finished(Scan(d, Start(acc), f).scanner, f, acc)
  {
    if |f| > 0 {
      var s1 := Step(d, Start(acc), f[0]).next;
      assert s1.state == FieldStarted && s1.field == [f[0]];
      assert Scan(d, Start(acc), f) == Scan(d, s1, f[1..]);
      assert PlainField(d, f[1..]) by {
        forall i | 0 <= i < |f| - 1 ensures f[1..][i] == f[i + 1] { }
      }
      StartedPlain(d, s1, f[1..]);
      assert [f[0]] + f[1..] == f;
    }
  }

  /** Inside quotes, a doubled quote yields one quote byte and any other
      byte is kept as it is. */
  lemma QuotedStep(d: Dialect, s: Scanner, g: Field) returns (s2: Scanner)
    requires s.state == FieldStarted && s.insideQuotes && |g| > 0 && g[0] != NUL
    ensures s2.state == FieldStarted && s2.insideQuotes
    ensures s2.field == s.field + [g[0]] && s2.fields == s.fields
    ensures var q := d.quoteChar;
      Scan(d, s, Double(q, g) + [q]) == Scan(d, s2, Double(q, g[1..]) + [q])
  {
    var q := d.quoteChar;
    var x := Double(q, g[1..]) + [q];
    DoubleHead(q, g);
    if g[0] == q {
      s2 := QuotePairInside(d, s, x);
    } else {
      s2 := ByteInside(d, s, g[0], x);
    }
  }

  /** Inside quotes, two quote bytes add one quote byte to the field. */
  lemma QuotePairInside(d: Dialect, s: Scanner, x: seq<char>) returns (s2: Scanner)
    requires s.state == FieldStarted && s.insideQuotes
    ensures s2.state == FieldStarted && s2.insideQuotes
    ensures s2.field == s.field + [d.quoteChar] && s2.fields == s.fields
    ensures Scan(d, s, [d.quoteChar] + ([d.quoteChar] + x)) == Scan(d, s2, x)
  {
    var q := d.quoteChar;
    var size := if |s.field| > s.fieldSize - 1 then s.fieldSize + MAX_FIELD_SIZE else s.fieldSize;
    var s1 := s.(fieldSize := size, state := MayBeEscaped);
    s2 := s1.(state := FieldStarted, field := s1.field + [q]);
    assert Step(d, s, q) == StepResult(s1, Advance);
    assert Step(d, s1, q) == StepResult(s2, Advance);
    ScanCons(d, s, q, [q] + x);
    ScanCons(d, s1, q, x);
  }

  /** Inside quotes, any byte other than the quote and NUL is added to the
      field. */
  lemma ByteInside(d: Dialect, s: Scanner, c: char, x: seq<char>) returns (s2: Scanner)
    requires s.state == FieldStarted && s.insideQuotes && c != d.quoteChar && c != NUL
    ensures s2.state == FieldStarted && s2.insideQuotes
    ensures s2.field == s.field + [c] && s2.fields == s.fields
    ensures Scan(d, s, [c] + x) == Scan(d, s2, x)
  {
    var size := if |s.field| > s.fieldSize - 1 then s.fieldSize + MAX_FIELD_SIZE else s.fieldSize;
    s2 := s.(fieldSize := size, field := s.field + [c]);
    assert Step(d, s, c) == StepResult(s2, Advance);
    ScanCons(d, s, c, x);
  }

  /** One byte of a field, doubled if it is the quote, then the rest. */
  lemma DoubleHead(q: char, g: Field)
    requires |g| > 0
    ensures g[0] == q ==> Double(q, g) + [q] == [q] + ([q] + (Double(q, g[1..]) + [q]))
    ensures g[0] != q ==> Double(q, g) + [q] == [g[0]] + (Double(q, g[1..]) + [q])
  {
    var head := if g[0] == q then [q, q] else [g[0]];
    DoubleCons(q, g);
    Reassociate(head, Double(q, g[1..]), [q]);
    if g[0] == q {
      assert [q, q] == [q] + [q];
      Reassociate([q], [q], Double(q, g[1..]) + [q]);
    }
  }

  lemma DoubleCons(q: char, g: Field)
    requires |g| > 0
    ensures Double(q, g) == (if g[0] == q then [q, q] else [g[0]]) + Double(q, g[1..])
  {
  }

  lemma Reassociate<T>(a: seq<T>, b: seq<T>, c: seq<T>)
    ensures (a + b) + c == a + (b + c)
  {
  }

  /** The closing quote leaves the scanner in MAY_BE_ESCAPED with the
      whole field collected. */
  lemma {:induction false} QuotedTail(d: Dialect, s: Scanner, g: Field)
    requires s.state == FieldStarted && s.insideQuotes && NulFree(g)
    ensures var o := Scan(d, s, Double(d.quoteChar, g) + [d.quoteChar]);
      && o.NeedMore? && o.scanner.state == MayBeEscaped && o.scanner.insideQuotes
      && o.scanner.field == s.field + g && o.scanner.fields == s.fields
    decreases |g|
  {
    if |g| == 0 {
      ClosingQuoteOnly(d, s);
    } else {
      var s2 := QuotedStep(d, s, g);
      SuffixElements(g, 1);
      QuotedTail(d, s2, g[1..]);
      var o := Scan(d, s2, Double(d.quoteChar, g[1..]) + [d.quoteChar]);
      FieldAfterHead(s.field, g, s2.field, o.scanner.field);
    }
  }

  /** The field bookkeeping of QuotedTail's inductive step. */
  lemma FieldAfterHead(f: Field, g: Field, f2: Field, o: Field)
    requires |g| > 0 && f2 == f + [g[0]] && o == f2 + g[1..]
    ensures o == f + g
  {
    assert [g[0]] + g[1..] == g;
    assert f + [g[0]] + g[1..] == f + g;
  }

  lemma ClosingQuoteOnly(d: Dialect, s: Scanner)
    requires s.state == FieldStarted && s.insideQuotes
    ensures var o := Scan(d, s, Double(d.quoteChar, []) + [d.quoteChar]);
      && o.NeedMore? && o.scanner.state == MayBeEscaped && o.scanner.insideQuotes
      && o.scanner.field == s.field && o.scanner.fields == s.fields
  {
    var q := d.quoteChar;
    assert Double(q, []) + [q] == [q] + [];
    assert Step(d, s, q).action == Advance && Step(d, s, q).next.state == MayBeEscaped;
    ScanCons(d, s, q, []);
  }

  /** The byte after the opening quote: INSIDE_QUOTED_FIELD sets
      `inside_quotes` and behaves like the quoted part of FIELD_STARTED. */
  lemma OpeningStep(d: Dialect, s: Scanner, f: Field) returns (s2: Scanner)
    requires s.state == InsideQuotedField && s.field == [] && |f| > 0
    ensures s2.state == FieldStarted && s2.insideQuotes
    ensures s2.field == [f[0]] && s2.fields == s.fields
    ensures var q := d.quoteChar;
      Scan(d, s, Double(q, f) + [q]) == Scan(d, s2, Double(q, f[1..]) + [q])
  {
    var q := d.quoteChar;
    var x := Double(q, f[1..]) + [q];
    DoubleHead(q, f);
    if f[0] == q {
      var s1 := s.(state := MayBeEscaped, insideQuotes := true);
      s2 := s1.(state := FieldStarted, field := [q]);
      assert Step(d, s, q) == StepResult(s1, Advance);
      assert Step(d, s1, q) == StepResult(s2, Advance);
      ScanCons(d, s, q, [q] + x);
      ScanCons(d, s1, q, x);
    } else {
      s2 := s.(state := FieldStarted, insideQuotes := true, field := [f[0]]);
      assert Step(d, s, f[0]) == StepResult(s2, Advance);
      ScanCons(d, s, f[0], x);
    }
  }

  /** After a closing quote, a byte other than the quote clears
      `inside_quotes` and is looked at again as an unquoted byte of the
      same field. */
  lemma ClosingQuote(d: Dialect, s: Scanner, c: char, x: seq<char>)
    requires s.state == MayBeEscaped && c != d.quoteChar
    ensures Scan(d, s, [c] + x) == Scan(d, s.(state := FieldStarted, insideQuotes := false), [c] + x)
  {
    ScanCons(d, s, c, x);
  }

  /** A quoted field written with doubled quotes is read back exactly. */
  lemma QuotedField(d: Dialect, acc: Row, f: Field)
    requires Compatible(d) && NulFree(f)
    ensures var q := d.quoteChar;
      var o := Scan(d, Start(acc), [q] + Double(q, f) + [q]);
      o.NeedMore? && Finished(o.scanner, f, acc)
  {
    var q := d.quoteChar;
    var s1 := Start(acc).(state := InsideQuotedField);
    assert Step(d, Start(acc), q) == StepResult(s1, Advance);
    assert [q] + Double(q, f) + [q] == [q] + (Double(q, f) + [q]);
    ScanCons(d, Start(acc), q, Double(q, f) + [q]);
    if |f| == 0 {
      EmptyQuotedBody(d, acc);
    } else {
      QuotedBody(d, acc, f);
    }
  }

  lemma EmptyQuotedBody(d: Dialect, acc: Row)
    ensures var q := d.quoteChar;
      var o := Scan(d, Start(acc).(state := InsideQuotedField), Double(q, []) + [q]);
      o.NeedMore? && Finished(o.scanner, [], acc)
  {
    var q := d.quoteChar;
    var s1 := Start(acc).(state := InsideQuotedField);
    var s2 := s1.(state := MayBeEscaped, insideQuotes := true);
    assert Step(d, s1, q) == StepResult(s2, Advance);
    assert Double(q, []) + [q] == [q] + [];
    ScanCons(d, s1, q, []);
  }

  lemma QuotedBody(d: Dialect, acc: Row, f: Field)
    requires NulFree(f) && |f| > 0
    ensures var q := d.quoteChar;
      var o := Scan(d, Start(acc).(state := InsideQuotedField), Double(q, f) + [q]);
      o.NeedMore? && Finished(o.scanner, f, acc)
  {
    var q := d.quoteChar;
    var s2 := OpeningStep(d, Start(acc).(state := InsideQuotedField), f);
    SuffixElements(f, 1);
    QuotedTail(d, s2, f[1..]);
    var o := Scan(d, s2, Double(q, f[1..]) + [q]);
    assert o.scanner.field == [f[0]] + f[1..] == f;
    assert o.scanner.fields == acc;
  }

  /** Whatever `write_row` makes of a field, the scanner recovers it. */
  lemma EncodedField(d: Dialect, w: Writer, acc: Row, f: Field)
    requires Compatible(d) && Matches(w, d) && NulFree(f)
    ensures Scan(d, Start(acc), EncodeField(w, f)).NeedMore?
    ensures Finished(Scan(d, Start(acc), EncodeField(w, f)).scanner, f, acc)
  {
    if NeedsQuote(w, f) {
      QuotedField(d, acc, f);
    } else {
      NeedsQuoteMeansSpecialByte(w, f);
      assert forall i :: 0 <= i < |f| ==> !Special(w, f[i]);
      UnquotedField(d, acc, f);
    }
  }

  /** An encoded field followed by a delimiter, CR or LF. */
  lemma EncodedFieldThen(d: Dialect, w: Writer, acc: Row, f: Field, c: char, more: seq<char>)
    requires Compatible(d) && Matches(w, d) && NulFree(f)
    requires c == d.delim || c == CR || c == LF
    ensures c == d.delim ==> Scan(d, Start(acc), EncodeField(w, f) + ([c] + more)) == Scan(d, Start(acc + [f]), more)
    ensures c != d.delim ==> Scan(d, Start(acc), EncodeField(w, f) + ([c] + more)) == Complete(acc + [f], more)
  {
    EncodedField(d, w, acc, f);
    ScanAppend(d, Start(acc), EncodeField(w, f), [c] + more);
    Terminate(d, Scan(d, Start(acc), EncodeField(w, f)).scanner, f, acc, c, more);
  }

  /** The encoded row split after its first field. */
  lemma JoinFirst(w: Writer, row: Row)
    requires |row| > 1
    ensures Join(EncodeAll(w, row), w.delim)
      == EncodeField(w, row[0]) + [w.delim] + Join(EncodeAll(w, row[1..]), w.delim)
  {
    assert EncodeAll(w, row)[1..] == EncodeAll(w, row[1..]);
  }

  /** The first of several encoded fields, and the delimiter after it. */
  lemma FirstFieldOfMany(d: Dialect, w: Writer, acc: Row, row: Row, more: seq<char>)
    requires Compatible(d) && Matches(w, d) && AllNulFree(row) && |row| > 1
    ensures Scan(d, Start(acc), Join(EncodeAll(w, row), d.delim) + more)
      == Scan(d, Start(acc + [row[0]]), Join(EncodeAll(w, row[1..]), d.delim) + more)
  {
    var j := Join(EncodeAll(w, row[1..]), d.delim);
    JoinFirst(w, row);
    var e := EncodeField(w, row[0]);
    assert e + [d.delim] + j + more == e + ([d.delim] + (j + more));
    EncodedFieldThen(d, w, acc, row[0], d.delim, j + more);
  }

  lemma SplitFirst(acc: Row, row: Row)
    requires |row| > 1
    ensures acc + [row[0]] + row[1..] == acc + row
    ensures acc + [row[0]] + row[1..][..|row| - 2] == acc + row[..|row| - 1]
  {
  }

  lemma OneFieldTerminated(d: Dialect, w: Writer, acc: Row, row: Row, c: char, more: seq<char>)
    requires Compatible(d) && Matches(w, d) && AllNulFree(row) && |row| == 1
    requires c == CR || c == LF
    ensures Scan(d, Start(acc), Join(EncodeAll(w, row), d.delim) + ([c] + more)) == Complete(acc + row, more)
  {
    var f := row[0];
    assert row == [f] && NulFree(f);
    assert EncodeAll(w, row) == [EncodeField(w, f)];
    assert Join(EncodeAll(w, row), d.delim) == EncodeField(w, f);
    EncodedFieldThen(d, w, acc, f, c, more);
  }

  lemma OneFieldAtEnd(d: Dialect, w: Writer, acc: Row, row: Row)
    requires Compatible(d) && Matches(w, d) && AllNulFree(row) && |row| == 1
    ensures var o := Scan(d, Start(acc), Join(EncodeAll(w, row), d.delim));
      o.NeedMore? && o.scanner.fields + [o.scanner.field] == acc + row
      && o.scanner.fields == acc + row[..|row| - 1]
  {
    var f := row[0];
    assert row == [f] && NulFree(f) && row[..|row| - 1] == [];
    assert EncodeAll(w, row) == [EncodeField(w, f)];
    assert Join(EncodeAll(w, row), d.delim) == EncodeField(w, f);
    EncodedField(d, w, acc, f);
  }

  lemma FirstFieldOfManyAtEnd(d: Dialect, w: Writer, acc: Row, row: Row)
    requires Compatible(d) && Matches(w, d) && AllNulFree(row) && |row| > 1
    ensures Scan(d, Start(acc), Join(EncodeAll(w, row), d.delim))
      == Scan(d, Start(acc + [row[0]]), Join(EncodeAll(w, row[1..]), d.delim))
  {
    FirstFieldOfMany(d, w, acc, row, []);
    assert Join(EncodeAll(w, row), d.delim) + [] == Join(EncodeAll(w, row), d.delim);
    assert Join(EncodeAll(w, row[1..]), d.delim) + [] == Join(EncodeAll(w, row[1..]), d.delim);
  }

  /** Round trip of one row: the encoded fields of `row`, joined by the
      delimiter and followed by CR or LF, scan to exactly `row`. */
  lemma {:induction false} EncodedRowTerminated(d: Dialect, w: Writer, acc: Row, row: Row, c: char, more: seq<char>)
    requires Compatible(d) && Matches(w, d) && AllNulFree(row) && |row| >= 1
    requires c == CR || c == LF
    ensures Scan(d, Start(acc), Join(EncodeAll(w, row), d.delim) + ([c] + more)) == Complete(acc + row, more)
    decreases |row|
  {
    if |row| == 1 {
      OneFieldTerminated(d, w, acc, row, c, more);
    } else {
      FirstFieldOfMany(d, w, acc, row, [c] + more);
      SuffixElements(row, 1);
      EncodedRowTerminated(d, w, acc + [row[0]], row[1..], c, more);
      SplitFirst(acc, row);
    }
  }

  /** The same row at the end of the input: the bytes run out with the last
      field collected and all earlier ones finished. */
  lemma {:induction false} EncodedRowAtEnd(d: Dialect, w: Writer, acc: Row, row: Row)
    requires Compatible(d) && Matches(w, d) && AllNulFree(row) && |row| >= 1
    ensures var o := Scan(d, Start(acc), Join(EncodeAll(w, row), d.delim));
      o.NeedMore? && o.scanner.fields + [o.scanner.field] == acc + row
      && o.scanner.fields == acc + row[..|row| - 1]
    decreases |row|
  {
    if |row| == 1 {
      OneFieldAtEnd(d, w, acc, row);
    } else {
      FirstFieldOfManyAtEnd(d, w, acc, row);
      SuffixElements(row, 1);
      EncodedRowAtEnd(d, w, acc + [row[0]], row[1..]);
      SplitFirst(acc, row);
    }
  }
}

=== FILE: scanner.dfy ===
/** The field scanner of `read_row` (src/ccsv.c:195-328): a six-state
    machine driven one byte at a time.  Where the C code steps `row_pos`
    back so that the same byte is seen again in the next state, the step
    answers `Reprocess`; where it jumps to `end`, it answers `EndRow`. */
module FieldScanner {
  import opened CsvChars
  import opened Config

  datatype State =
    | FieldStart
    | FieldNotStarted
    | FieldStarted
    | InsideQuotedField
    | MayBeEscaped
    | FieldEnd

  /** Everything `read_row` keeps while it scans one row: the state, the
      field being collected with its buffer capacity, the fields finished
      so far, and the `inside_quotes` flag. */
  datatype Scanner = Scanner(
    state: State,
    field: Field,
    fieldSize: nat,
    fields: Row,
    insideQuotes: bool)

  datatype Action = Advance | Reprocess | EndRow

  datatype StepResult = StepResult(next: Scanner, action: Action)

  /** Result of scanning some bytes: either the row ended at a CR, LF or NUL,
      leaving `rest` unscanned, or the bytes ran out first. */
  datatype Outcome = Complete(row: Row, rest: seq<char>) | NeedMore(scanner: Scanner)

  /** The scanner at the start of a field, with `fields` already collected
      and a freshly allocated field buffer. */
  function Start(fields: Row): Scanner
  {
    Scanner(FieldStart, [], MAX_FIELD_SIZE, fields, false)
  }

  /** Every `Reprocess` moves to a state of lower rank, so a byte is seen
      at most four times. */
  function Rank(st: State): nat
  {
    match st
    case FieldEnd => 0
    case FieldStarted => 1
    case MayBeEscaped => 2
    case _ => 3
  }

  /** The field buffer holds `fieldSize + 1` bytes, so the terminating NUL
      written at index `|field|` fits exactly when `|field| <= fieldSize`. */
  predicate BufferInv(s: Scanner)
  {
    && s.fieldSize >= MAX_FIELD_SIZE
    && |s.field| <= s.fieldSize
    && (s.state == FieldStart || s.state == FieldNotStarted || s.state == InsideQuotedField ==> |s.field| == 0)
    && (s.state == MayBeEscaped ==> |s.field| < s.fieldSize)
  }

  function Step(d: Dialect, s: Scanner, c: char): (r: StepResult)
    // the "do not advance" trick always makes progress through the states
    ensures r.action == Reprocess ==> Rank(r.next.state) < Rank(s.state)
    // a row only ends in FIELD_END, on a CR, LF or NUL, after the field is added
    ensures r.action == EndRow ==>
      s.state == FieldEnd && (c == CR || c == LF || c == NUL) && r.next.fields == s.fields + [s.field]
    // fields are only ever appended, one at a time, in FIELD_END
    ensures s.state != FieldEnd ==> r.next.fields == s.fields
    ensures s.state == FieldEnd ==> r.next == Start(s.fields + [s.field]).(insideQuotes := s.insideQuotes)
    // a byte is appended to the field at most once, and it is `c`
    ensures s.state != FieldEnd ==> r.next.field == s.field || r.next.field == s.field + [c]
    ensures r.action == Reprocess ==> r.next.field == s.field
    // the field buffer bound is preserved, so the NUL written at FIELD_END fits
    ensures BufferInv(s) ==> BufferInv(r.next)
  {
    var q := d.quoteChar;
    match s.state
    case FieldStart =>
      if c == q then
        StepResult(s.(state := InsideQuotedField), Advance)
      else if d.skipInitialSpace != 0 && c == SPACE then
        StepResult(s.(state := FieldNotStarted), Advance)
      else if c == d.delim || c == CR || c == LF then
        StepResult(s.(state := FieldEnd), Reprocess)
      else
        StepResult(s.(state := FieldStarted, field := s.field + [c]), Advance)
    case InsideQuotedField =>
      if c == q then
        StepResult(s.(state := MayBeEscaped, insideQuotes := true), Advance)
      else
        StepResult(s.(state := FieldStarted, insideQuotes := true, field := s.field + [c]), Advance)
    case FieldNotStarted =>
      // CR and LF are not field terminators here
      if c == q then
        StepResult(s.(state := InsideQuotedField), Advance)
      else if c == d.delim then
        StepResult(s.(state := FieldEnd), Reprocess)
      else if c == SPACE then
        StepResult(s, Advance)
      else
        StepResult(s.(state := FieldStarted, field := s.field + [c]), Advance)
    case FieldStarted =>
      // GROW_FIELD_BUFFER_IF_NEEDED
      var size := if |s.field| > s.fieldSize - 1 then s.fieldSize + MAX_FIELD_SIZE else s.fieldSize;
      var g := s.(fieldSize := size);
      if c == q && s.insideQuotes then
        StepResult(g.(state := MayBeEscaped), Advance)
      else if c == q && !s.insideQuotes then
        StepResult(g.(field := s.field + [c]), Advance)
      else if (c == d.delim && !s.insideQuotes) || ((c == LF || c == CR) && !s.insideQuotes) || c == NUL then
        StepResult(g.(state := FieldEnd), Reprocess)
      else
        StepResult(g.(field := s.field + [c]), Advance)
    case MayBeEscaped =>
      if c == q then
        StepResult(s.(state := FieldStarted, field := s.field + [c]), Advance)
      else
        StepResult(s.(state := FieldStarted, insideQuotes := false), Reprocess)
    case FieldEnd =>
      // ADD_FIELD, then a fresh field buffer
      var n := Start(s.fields + [s.field]).(insideQuotes := s.insideQuotes);
      if c == CR || c == LF || c == NUL then StepResult(n, EndRow) else StepResult(n, Advance)
  }

  /** Feed `input` to the scanner until a row ends or the bytes run out. */
  function Scan(d: Dialect, s: Scanner, input: seq<char>): (o: Outcome)
    decreases |input|, Rank(s.state)
    // a finished row leaves a proper suffix of the input, right after its terminator
    ensures o.Complete? ==>
      && |o.rest| < |input|
      && o.rest == input[|input| - |o.rest|..]
      && input[|input| - |o.rest| - 1] in {CR, LF, NUL}
    // fields come out in source order after those already collected
    ensures o.Complete? ==> s.fields < o.row
    ensures o.NeedMore? ==> s.fields <= o.scanner.fields
    ensures o.NeedMore? && BufferInv(s) ==> BufferInv(o.scanner)
  {
    if |input| == 0 then NeedMore(s)
    else
      var r := Step(d, s, input[0]);
      match r.action
      case EndRow => Complete(r.next.fields, input[1..])
      case Advance => Scan(d, r.next, input[1..])
      case Reprocess => Scan(d, r.next, input)
  }

  /** Chunk continuity: scanning `a + b` is scanning `a`, then carrying the
      whole scanner (state, partial field, collected fields, quote flag)
      over to `b`. */
  lemma {:induction false} ScanAppend(d: Dialect, s: Scanner, a: seq<char>, b: seq<char>)
    ensures Scan(d, s, a + b) ==
      match Scan(d, s, a)
      case Complete(row, rest) => Complete(row, rest + b)
      case NeedMore(s') => Scan(d, s', b)
    decreases |a|, Rank(s.state)
  {
    if |a| == 0 {
      assert a + b == b;
    } else {
      var r := Step(d, s, a[0]);
      assert (a + b)[0] == a[0];
      assert (a + b)[1..] == a[1..] + b;
      match r.action
      case EndRow =>
      case Advance => ScanAppend(d, r.next, a[1..], b);
      case Reprocess => ScanAppend(d, r.next, a, b);
    }
  }

  /** One byte of `Scan`, unfolded. */
  lemma ScanCons(d: Dialect, s: Scanner, c: char, x: seq<char>)
    ensures var r := Step(d, s, c);
      Scan(d, s, [c] + x) ==
        match r.action
        case EndRow => Complete(r.next.fields, x)
        case Advance => Scan(d, r.next, x)
        case Reprocess => Scan(d, r.next, [c] + x)
  {
    assert ([c] + x)[0] == c && ([c] + x)[1..] == x;
  }
}

=== FILE: scenarios.dfy ===
/** Small inputs and what the reader and writer make of them, including
    the corner cases the code handles in its own way. */
module Scenarios {
  import opened CsvChars
  import opened Wrappers
  import opened Config
  import opened FieldScanner
  import opened RowReader
  import opened RowWriter
  import opened RoundTrip
  import opened LineSplitting
  import opened ReadBack

  /** A field holding the delimiter is quoted and the others are not; the
      row starts with LF and has no terminator.  With the default options
      the row `x`, `y,z` is written as LF `x,"y,z"`. */
  lemma WriterQuotesDelimiter(w: Writer, x: char, y: char, z: char)
    requires w.delim != w.quoteChar && !Special(w, x) && !Special(w, y) && !Special(w, z)
    ensures var t, q := w.delim, w.quoteChar;
      WriteRow(w, [[x], [y, t, z]]) == [LF, x, t, q, y, t, z, q]
  {
    var t, q := w.delim, w.quoteChar;
    var row: Row := [[x], [y, t, z]];
    var parts := [[x], [q, y, t, z, q]];
    assert [x] + [t] + [q, y, t, z, q] == [x, t, q, y, t, z, q];
    assert [LF] + [x, t, q, y, t, z, q] == [LF, x, t, q, y, t, z, q];
    assert parts[1..] == [[q, y, t, z, q]];
    PlainByte(w, x);
    DelimiterInside(w, y, z);
    assert EncodeAll(w, row) == parts;
    assert Join(parts, t) == [x] + [t] + [q, y, t, z, q];
  }

  /** A doubled quote inside a quoted field stands for one quote: with the
      default options `a,"b""c",d` LF reads as `a`, `b"c`, `d`. */
  lemma ReaderUndoublesQuotes(rd: Reader, a: char, b: char, c: char, e: char)
    requires Compatible(rd.dialect)
    requires Ordinary(rd.dialect, a) && Ordinary(rd.dialect, b) && Ordinary(rd.dialect, c) && Ordinary(rd.dialect, e)
    ensures var t, q := rd.dialect.delim, rd.dialect.quoteChar;
      && NulFree([a, t, q, b, q, q, c, q, t, e, LF])
      && ReadRow(rd, [a, t, q, b, q, q, c, q, t, e, LF]) ==
           ReadResult(Some([[a], [b, q, c], [e]]), rd.(rowsRead := rd.rowsRead + 1), [])
  {
    var t, q := rd.dialect.delim, rd.dialect.quoteChar;
    var w := Writer(t, q);
    var row: Row := [[a], [b, q, c], [e]];
    var quoted := [q, b, q, q, c, q];
    var line := [a] + [t] + (quoted + [t] + [e]);
    assert line + ([LF] + []) == [a, t, q, b, q, q, c, q, t, e, LF];
    PlainByte(w, a);
    PlainByte(w, e);
    QuoteInside(w, b, c);
    assert EncodeAll(w, row) == [[a], quoted, [e]];
    JoinThree([a], quoted, [e], t);
    assert Join(EncodeAll(w, row), w.delim) == line;
    InnerRow(rd, w, row, []);
  }

  lemma JoinThree(x: seq<char>, y: seq<char>, z: seq<char>, c: char)
    ensures Join([x, y, z], c) == x + [c] + (y + [c] + z)
  {
    var parts := [x, y, z];
    assert parts[1..] == [y, z];
    assert [y, z][1..] == [z];
    assert Join([z], c) == z;
    assert Join([y, z], c) == y + [c] + z;
    assert Join(parts, c) == x + [c] + Join([y, z], c);
  }

  /** A one-byte field with no special byte is written as it is. */
  lemma PlainByte(w: Writer, a: char)
    requires !Special(w, a)
    ensures EncodeField(w, [a]) == [a]
  {
    assert [a][1..] == [];
    assert !NeedsQuote(w, []);
    assert !NeedsQuote(w, [a]);
  }

  lemma DelimiterInside(w: Writer, y: char, z: char)
    requires w.delim != w.quoteChar && !Special(w, y) && !Special(w, z)
    ensures EncodeField(w, [y, w.delim, z]) == [w.quoteChar, y, w.delim, z, w.quoteChar]
  {
    var t, q := w.delim, w.quoteChar;
    var f := [y, t, z];
    assert f[1..] == [t, z] && f[1..][1..] == [z] && [z][1..] == [];
    assert NeedsQuote(w, f[1..]);
    assert Double(q, [z]) == [z] + Double(q, []);
    assert Double(q, [t, z]) == [t] + Double(q, [z]);
    assert Double(q, f) == [y] + Double(q, [t, z]);
    assert [q] + [y, t, z] + [q] == [q, y, t, z, q];
  }

  lemma QuoteInside(w: Writer, b: char, c: char)
    requires !Special(w, b) && !Special(w, c)
    ensures EncodeField(w, [b, w.quoteChar, c]) == [w.quoteChar, b, w.quoteChar, w.quoteChar, c, w.quoteChar]
  {
    var q := w.quoteChar;
    var f := [b, q, c];
    assert f[1..] == [q, c] && f[1..][1..] == [c] && [c][1..] == [];
    assert NeedsQuote(w, f[1..]);
    assert Double(q, [c]) == [c] + Double(q, []);
    assert Double(q, [q, c]) == [q, q] + Double(q, [c]);
    assert Double(q, f) == [b] + Double(q, [q, c]);
    assert [q] + [b, q, q, c] + [q] == [q, b, q, q, c, q];
  }

  /** An opening quote with nothing after it gives no row at all. */
  lemma LoneQuoteIsNoRow()
    ensures ReadRow(InitReader(None), "\"").row.None?
  {
  }

  /** A byte with no meaning to the scanner. */
  predicate Ordinary(d: Dialect, c: char)
  {
    c != d.delim && c != d.quoteChar && c != SPACE && c != CR && c != LF && c != NUL
  }

  /** With leading spaces skipped, a line break right after the skipped
      space does not end the row: `a, LF b LF` is one row whose second
      field starts with the LF. */
  lemma SkippedSpaceKeepsLineBreak(rd: Reader, a: char, b: char)
    requires SkipDialect(rd.dialect) && Ordinary(rd.dialect, a) && Ordinary(rd.dialect, b)
    ensures NulFree([a, rd.dialect.delim, SPACE, LF, b, LF])
    ensures ReadRow(rd, [a, rd.dialect.delim, SPACE, LF, b, LF]).row == Some([[a], [LF, b]])
  {
    var d := rd.dialect;
    var input := [a, d.delim, SPACE, LF, b, LF];
    var second := [LF] + ([b] + ([LF] + []));
    assert NulFree(input);
    assert input == [a] + ([d.delim] + ([SPACE] + second));
    SkipFirstField(d, a, second);
    SkipSecondField(d, a, b, []);
    assert Scan(d, Start([]), input) == Complete([[a], [LF, b]], []);
    RowOfScan(rd, input);
  }

  /** Leading spaces skipped, and delimiter and quote distinct ordinary
      bytes. */
  predicate SkipDialect(d: Dialect)
  {
    && d.skipInitialSpace != 0 && d.delim != d.quoteChar
    && d.delim != SPACE && d.delim != CR && d.delim != LF && d.delim != NUL
    && d.quoteChar != SPACE && d.quoteChar != LF && d.quoteChar != NUL
  }

  /** `a`, the delimiter and a space leave the scanner in FIELD_NOT_STARTED
      with the field `a` added. */
  lemma SkipFirstField(d: Dialect, a: char, rest: seq<char>)
    requires SkipDialect(d) && Ordinary(d, a)
    ensures Scan(d, Start([]), [a] + ([d.delim] + ([SPACE] + rest))) ==
      Scan(d, Start([[a]]).(state := FieldNotStarted), rest)
  {
    var s0 := Start([]);
    var s1 := s0.(state := FieldStarted, field := [a]);
    var e1 := s1.(state := FieldEnd);
    var s2 := Start([[a]]);
    var s3 := s2.(state := FieldNotStarted);
    var none: Row := [];
    assert none + [[a]] == [[a]];
    assert Step(d, s0, a) == StepResult(s1, Advance);
    assert Step(d, s1, d.delim) == StepResult(e1, Reprocess);
    assert Step(d, e1, d.delim) == StepResult(s2, Advance);
    assert Step(d, s2, SPACE) == StepResult(s3, Advance);
    ScanCons(d, s0, a, [d.delim] + ([SPACE] + rest));
    ScanCons(d, s1, d.delim, [SPACE] + rest);
    ScanCons(d, e1, d.delim, [SPACE] + rest);
    ScanCons(d, s2, SPACE, rest);
  }

  /** In FIELD_NOT_STARTED an LF is an ordinary byte of the field. */
  lemma SkipSecondField(d: Dialect, a: char, b: char, more: seq<char>)
    requires SkipDialect(d) && Ordinary(d, b)
    ensures Scan(d, Start([[a]]).(state := FieldNotStarted), [LF] + ([b] + ([LF] + more))) ==
      Complete([[a], [LF, b]], more)
  {
    var s3 := Start([[a]]).(state := FieldNotStarted);
    var s4 := s3.(state := FieldStarted, field := [LF]);
    var s5 := s4.(field := [LF, b]);
    var e5 := s5.(state := FieldEnd);
    assert [[a]] + [[LF, b]] == [[a], [LF, b]];
    assert [LF] + [b] == [LF, b];
    assert Step(d, s3, LF) == StepResult(s4, Advance);
    assert Step(d, s4, b) == StepResult(s5, Advance);
    assert Step(d, s5, LF) == StepResult(e5, Reprocess);
    assert Step(d, e5, LF) == StepResult(Start([[a], [LF, b]]), EndRow);
    ScanCons(d, s3, LF, [b] + ([LF] + more));
    ScanCons(d, s4, b, [LF] + more);
    ScanCons(d, s5, LF, more);
    ScanCons(d, e5, LF, more);
  }

  /** A bare CR ends the row and the rest of its line is lost:
      `a CR b LF c LF` reads as the rows `a` and `c`. */
  lemma BareCrLosesLine(rd: Reader, a: char, b: char, c: char)
    requires Compatible(rd.dialect) && Ordinary(rd.dialect, a) && Ordinary(rd.dialect, b) && Ordinary(rd.dialect, c)
    ensures NulFree([a, CR, b, LF, c, LF])
    ensures ReadAll(rd, [a, CR, b, LF, c, LF]).rows == [[[a]], [[c]]]
  {
    var rd1 := rd.(rowsRead := rd.rowsRead + 1);
    BareCrFirstRow(rd, a, b, c);
    SingleByteLine(rd1, c);
    TwoRows(rd, [a, CR, b, LF, c, LF], [[a]], [c, LF], [[c]]);
  }

  /** Two `read_row` calls that return rows and use up the input. */
  lemma TwoRows(rd: Reader, input: seq<char>, first: Row, mid: seq<char>, second: Row)
    requires NulFree(input) && ReadRow(rd, input) == ReadResult(Some(first), rd.(rowsRead := rd.rowsRead + 1), mid)
    requires NulFree(mid) && ReadRow(rd.(rowsRead := rd.rowsRead + 1), mid) ==
      ReadResult(Some(second), rd.(rowsRead := rd.rowsRead + 2), [])
    ensures ReadAll(rd, input).rows == [first, second]
  {
    var rd1 := rd.(rowsRead := rd.rowsRead + 1);
    var rd2 := rd.(rowsRead := rd.rowsRead + 2);
    assert [first] + ([second] + []) == [first, second];
    ReadAllStep(rd, input, first, rd1, mid);
    ReadAllStep(rd1, mid, second, rd2, []);
    NothingLeft(rd2);
  }

  lemma BareCrFirstRow(rd: Reader, a: char, b: char, c: char)
    requires Compatible(rd.dialect) && Ordinary(rd.dialect, a) && Ordinary(rd.dialect, b) && Ordinary(rd.dialect, c)
    ensures NulFree([a, CR, b, LF, c, LF])
    ensures ReadRow(rd, [a, CR, b, LF, c, LF]) == ReadResult(Some([[a]]), rd.(rowsRead := rd.rowsRead + 1), [c, LF])
  {
    assert Split([a], rd.dialect.delim) == [[a]] by {
      assert [a][1..] == [];
    }
    assert [a] + ([CR] + ([b] + ([LF] + [c, LF]))) == [a, CR, b, LF, c, LF];
    BareCrDropsLine(rd, [a], [b], [c, LF]);
  }

  lemma SingleByteLine(rd: Reader, c: char)
    requires Compatible(rd.dialect) && Ordinary(rd.dialect, c)
    ensures NulFree([c, LF])
    ensures ReadRow(rd, [c, LF]) == ReadResult(Some([[c]]), rd.(rowsRead := rd.rowsRead + 1), [])
  {
    assert Split([c], rd.dialect.delim) == [[c]] by {
      assert [c][1..] == [];
    }
    assert [c] + ([LF] + []) == [c, LF];
    ReadUnquotedLine(rd, [c], []);
  }

  /** A last row holding one empty field leaves no bytes after its LF, so
      reading back the rows `a` and the empty field finds only the empty
      row of the first LF and then `a`. */
  lemma LastEmptyFieldLost(rd: Reader, w: Writer, a: char)
    requires Compatible(rd.dialect) && Matches(w, rd.dialect) && Ordinary(rd.dialect, a)
    ensures NulFree(WriteRows(w, [[[a]], [[]]]))
    ensures ReadAll(rd, WriteRows(w, [[[a]], [[]]])).rows == [[[]], [[a]]]
  {
    var input := [LF, a, LF];
    assert [LF] + [a, LF] == input;
    WrittenBytes(w, a);
    SingleByteLine(rd.(rowsRead := rd.rowsRead + 1), a);
    EmptyRowFirst(rd, [a, LF], [[a]]);
    assert NulFree(input) && ReadAll(rd, input).rows == [[[]], [[a]]];
  }

  /** An input starting with an LF reads as the empty row, then whatever
      the rest reads as. */
  lemma EmptyRowFirst(rd: Reader, mid: seq<char>, row: Row)
    requires rd.dialect.quoteChar != LF && NulFree(mid)
    requires ReadRow(rd.(rowsRead := rd.rowsRead + 1), mid) ==
      ReadResult(Some(row), rd.(rowsRead := rd.rowsRead + 2), [])
    ensures NulFree([LF] + mid)
    ensures ReadAll(rd, [LF] + mid).rows == [[[]], row]
  {
    EmptyLine(rd, mid);
    TwoRows(rd, [LF] + mid, [[]], mid, row);
  }

  lemma WrittenBytes(w: Writer, a: char)
    requires a != w.delim && a != w.quoteChar && a != CR && a != LF
    ensures WriteRows(w, [[[a]], [[]]]) == [LF, a, LF]
  {
    assert EncodeField(w, [a]) == [a] by {
      assert !NeedsQuote(w, [a][1..]);
    }
    assert EncodeField(w, []) == [];
    assert WriteRow(w, [[a]]) == [LF, a];
    assert WriteRow(w, [[]]) == [LF];
    assert WriteRows(w, [[[a]], [[]]]) == [LF, a, LF] by {
      assert [[[a]], [[]]][1..] == [[[]]];
      assert WriteRows(w, [[[]]]) == [LF] + WriteRows(w, []);
    }
  }
}

=== FILE: segmenter.dfy ===
/** `write_row_from_string` and `_write_field` (src/ccsv.c:429-512): a
    pre-formatted row string is cut into segments, each ending just after a
    delimiter, CR or LF that is not inside quotes, and every segment is
    written unchanged; CRLF follows the last one. */
module Segmenter {
  import opened CsvChars
  import opened Config

  /** Quote parity of a prefix of a segment: odd means inside quotes. */
  predicate InsideAfter(w: Writer, seg: seq<char>)
  {
    Count(w.quoteChar, seg) % 2 == 1
  }

  /** Whether `_write_field` stops after reading `c` with quote state
      `inside`.  CR and LF are tested before the quote byte, the delimiter
      after it. */
  predicate Breaks(w: Writer, c: char, inside: bool)
  {
    !inside && (c == CR || c == LF || (c != w.quoteChar && c == w.delim))
  }

  /** The segment `str[pos..end]` stops at the first breaking byte, or at
      the end of the string. */
  predicate IsSegment(w: Writer, str: seq<char>, pos: nat, end: nat)
  {
    && pos < end <= |str|
    && (forall j :: pos <= j < end - 1 ==> !Breaks(w, str[j], InsideAfter(w, str[pos..j])))
    && (end == |str| || Breaks(w, str[end - 1], InsideAfter(w, str[pos..end - 1])))
  }

  lemma CountSnoc(c: char, s: seq<char>, x: char)
    ensures Count(c, s + [x]) == Count(c, s) + (if x == c then 1 else 0)
  {
    CountAppend(c, s, [x]);
  }

  /** Reading one more byte flips the quote parity exactly when that byte
      is the quote character. */
  lemma ParityStep(w: Writer, str: seq<char>, pos: nat, cur: nat)
    requires pos <= cur < |str|
    ensures InsideAfter(w, str[pos..cur + 1]) == (InsideAfter(w, str[pos..cur]) != (str[cur] == w.quoteChar))
  {
    assert str[pos..cur + 1] == str[pos..cur] + [str[cur]];
    CountSnoc(w.quoteChar, str[pos..cur], str[cur]);
  }

  /** One `_write_field` call on the C string `str` from `*string_pos == pos`:
      returns how many bytes it consumed and the bytes it wrote. */
  method WriteField(w: Writer, str: seq<char>, pos: nat) returns (count: nat, newPos: nat, written: seq<char>)
    requires NulFree(str) && pos <= |str|
    // `*string_pos` advances by exactly the returned count
    ensures newPos == pos + count
    ensures |str| > 0 ==> pos + count <= |str| && written == str[pos..pos + count]
    ensures pos < |str| ==> count >= 1 && IsSegment(w, str, pos, pos + count)
    ensures 0 < |str| == pos ==> count == 0
    // with `string_len == 0`, `string_len - 1` wraps: the NUL at index 0 is
    // read, one byte is counted and nothing is printed
    ensures |str| == 0 ==> count == 1 && written == []
  {
    var inside := false;
    var cur := pos;
    while true
      invariant pos <= cur <= |str|
      invariant inside == InsideAfter(w, str[pos..cur])
      invariant forall j :: pos <= j < cur ==> !Breaks(w, str[j], InsideAfter(w, str[pos..j]))
      decreases |str| - cur
    {
      if |str| > 0 && cur > |str| - 1 {
        break;
      }
      if cur == |str| {
        // only when the string is empty: the terminating NUL is read
        cur := cur + 1;
        break;
      }
      var ch := str[cur];
      ParityStep(w, str, pos, cur);
      assert Breaks(w, ch, inside) ==> IsSegment(w, str, pos, cur + 1);
      cur := cur + 1;
      if (ch == CR || ch == LF) && !inside {
        break;
      } else if ch == w.quoteChar {
        inside := !inside;
      } else if ch == w.delim && !inside {
        break;
      }
    }
    count := cur - pos;
    newPos := cur;
    written := if |str| == 0 then [] else str[pos..cur];
  }

  /** `write_row_from_string`: the bytes it appends to the file. */
  method WriteRowFromString(w: Writer, str: seq<char>) returns (out: seq<char>)
    requires NulFree(str)
    ensures out == str + [CR, LF]
  {
    var pos: nat := 0;
    out := [];
    var count: nat := 1;
    while count > 0
      invariant pos <= |str|
      invariant out == str[..pos]
      invariant count == 0 ==> pos == |str|
      decreases |str| - pos, count
    {
      var next, written;
      count, next, written := WriteField(w, str, pos);
      out := out + written;
      if |str| == 0 {
        break;
      }
      assert str[..pos] + str[pos..next] == str[..next];
      pos := next;
    }
    out := out + [CR, LF];
  }
}

=== FILE: wrappers.dfy ===
/** The optional value used for a C pointer that may be NULL. */
module Wrappers {

  datatype Option<+T> = None | Some(value: T)
}

=== FILE: writer.dfy ===
/** `write_row` (src/ccsv.c:378-427): each field is written verbatim, or
    wrapped in quote bytes with every embedded quote doubled (the
    doubled-quote convention of section 2, rules 6-7, of RFC 4180), and the
    fields are joined by the delimiter.  The row is preceded by an LF and
    has no terminator of its own. */
module RowWriter {
  import opened CsvChars
  import opened Config

  /** A byte that forces the field it occurs in to be quoted. */
  predicate Special(w: Writer, c: char)
  {
    c == w.delim || c == w.quoteChar || c == CR || c == LF
  }

  /** The quoting decision of `write_row`: a scan of the field that stops
      at the first special byte. */
  predicate NeedsQuote(w: Writer, f: Field)
  {
    |f| > 0 && (Special(w, f[0]) || NeedsQuote(w, f[1..]))
  }

  lemma {:induction false} NeedsQuoteMeansSpecialByte(w: Writer, f: Field)
    ensures NeedsQuote(w, f) <==> exists i :: 0 <= i < |f| && Special(w, f[i])
    decreases |f|
  {
    if |f| > 0 {
      NeedsQuoteMeansSpecialByte(w, f[1..]);
      if exists i :: 0 <= i < |f| && Special(w, f[i]) {
        var i :| 0 <= i < |f| && Special(w, f[i]);
        if i > 0 {
          assert f[1..][i - 1] == f[i];
        }
      }
      if NeedsQuote(w, f[1..]) {
        var i :| 0 <= i < |f[1..]| && Special(w, f[1..][i]);
        assert f[i + 1] == f[1..][i];
      }
    }
  }

  /** The field body with every quote byte written twice. */
  function Double(q: char, f: Field): (r: seq<char>)
    ensures |r| == |f| + Count(q, f)
    ensures Count(q, r) == 2 * Count(q, f)
    ensures NulFree(f) && q != NUL ==> NulFree(r)
  {
    if |f| == 0 then []
    else
      var head := if f[0] == q then [q, q] else [f[0]];
      var tail := Double(q, f[1..]);
      CountAppend(q, head, tail);
      head + tail
  }

  function EncodeField(w: Writer, f: Field): (r: seq<char>)
    // quoted exactly when the field holds the delimiter, the quote, CR or LF
    ensures NeedsQuote(w, f) <==> (|r| > 0 && r[0] == w.quoteChar)
    ensures !NeedsQuote(w, f) ==> r == f
    // n embedded quotes become 2n quotes between the two enclosing ones
    ensures NeedsQuote(w, f) ==>
      && |r| == |f| + Count(w.quoteChar, f) + 2
      && Count(w.quoteChar, r) == 2 * Count(w.quoteChar, f) + 2
      && r[|r| - 1] == w.quoteChar
    ensures NulFree(f) && w.quoteChar != NUL ==> NulFree(r)
  {
    var q := w.quoteChar;
    if NeedsQuote(w, f) then
      var body := Double(q, f);
      CountAppend(q, [q], body);
      CountAppend(q, [q] + body, [q]);
      [q] + body + [q]
    else
      f
  }

  function EncodeAll(w: Writer, row: Row): (r: seq<seq<char>>)
    ensures |r| == |row|
    ensures forall i :: 0 <= i < |row| ==> r[i] == EncodeField(w, row[i])
  {
    if |row| == 0 then [] else [EncodeField(w, row[0])] + EncodeAll(w, row[1..])
  }

  /** The parts separated by single delimiters, none after the last. */
  function Join(parts: seq<seq<char>>, delim: char): seq<char>
  {
    if |parts| == 0 then []
    else if |parts| == 1 then parts[0]
    else parts[0] + [delim] + Join(parts[1..], delim)
  }

  lemma {:induction false} JoinNulFree(parts: seq<seq<char>>, delim: char)
    ensures delim != NUL && AllNulFree(parts) ==> NulFree(Join(parts, delim))
    decreases |parts|
  {
    if |parts| > 1 && delim != NUL && AllNulFree(parts) {
      JoinNulFree(parts[1..], delim);
      var r := Join(parts, delim);
      forall i | 0 <= i < |r| ensures r[i] != NUL {
        if i < |parts[0]| {
          assert r[i] == parts[0][i];
        } else if i > |parts[0]| {
          assert r[i] == Join(parts[1..], delim)[i - |parts[0]| - 1];
        }
      }
    }
  }

  /** The bytes one `write_row` call appends to the file. */
  function WriteRow(w: Writer, row: Row): (r: seq<char>)
    ensures |r| >= 1 && r[0] == LF
    // the last field ends the output: no delimiter or terminator follows it
    ensures |row| > 0 ==>
      var last := EncodeField(w, row[|row| - 1]);
      |last| < |r| && r[|r| - |last|..] == last
    ensures w.delim != NUL && w.quoteChar != NUL && AllNulFree(row) ==> NulFree(r)
  {
    var parts := EncodeAll(w, row);
    WrittenLastField(w, row);
    JoinNulFree(parts, w.delim);
    [LF] + Join(parts, w.delim)
  }

  lemma WrittenLastField(w: Writer, row: Row)
    ensures |row| > 0 ==>
      var r := [LF] + Join(EncodeAll(w, row), w.delim);
      var last := EncodeField(w, row[|row| - 1]);
      |last| < |r| && r[|r| - |last|..] == last
  {
    if |row| > 0 {
      var parts := EncodeAll(w, row);
      var j := Join(parts, w.delim);
      var last := parts[|parts| - 1];
      JoinEndsWithLast(parts, w.delim);
      assert ([LF] + j)[|[LF] + j| - |last|..] == j[|j| - |last|..];
    }
  }

  lemma {:induction false} JoinEndsWithLast(parts: seq<seq<char>>, delim: char)
    ensures |parts| > 0 ==>
      var j := Join(parts, delim);
      |parts[|parts| - 1]| <= |j| && j[|j| - |parts[|parts| - 1]|..] == parts[|parts| - 1]
    decreases |parts|
  {
    if |parts| > 1 {
      JoinEndsWithLast(parts[1..], delim);
      assert parts[1..][|parts| - 2] == parts[|parts| - 1];
    }
  }

  /** Several `write_row` calls in a row. */
  function WriteRows(w: Writer, rows: seq<Row>): (r: seq<char>)
    ensures |r| >= |rows|
    ensures |rows| > 0 ==> r[0] == LF
    ensures w.delim != NUL && w.quoteChar != NUL && (forall i :: 0 <= i < |rows| ==> AllNulFree(rows[i])) ==> NulFree(r)
  {
    if |rows| == 0 then []
    else
      var head := WriteRow(w, rows[0]);
      var tail := WriteRows(w, rows[1..]);
      NulFreeAppend(head, tail);
      head + tail
  }
}
